=== FILE: README.md ===
# Sports tracker accountability engine, in Dafny

This project models the weekly accountability engine of a small sports
tracker. Users log minutes of activity. Every Monday a sweep charges a fixed
penalty to each user whose total for the week just ended falls short of the
weekly goal. A ledger keyed by week id makes the sweep run at most once per
week. Users may also forfeit a week: that charges the penalty at once and
logs a zero-minute `gave-up` activity. A coach may overwrite any penalty.

The model has six modules:

- `Types` (`types.dfy`): the records (users, activities, activity types,
  settings, chat messages, weekly summaries) and the shared filter and sum
  helpers.
- `DateUtils` (`date_utils.dfy`): the Monday-based week arithmetic, the
  `formatMinutes` rendering and the Sunday-evening reminder window.
- `DataService` (`data_service.dfy`): the key-value store, as the class
  `Store`. Each storage key is a field that holds `None` while the key is
  absent. Every method names in its `modifies` clause only the keys it writes.
- `AppContext` (`app_context.dfy`): the sweep and the session actions, as
  the class `Provider`, which owns a `Store`. The sweep is also specified as
  a pure function `Sweep` of the users and the ledger. Its properties
  (Monday only, previous week, skipped once the week is marked, at most once per week, exact charges) are
  lemmas about that function.
- `Dashboard` (`dashboard.dfy`): the weekly summaries, the penalty pot, the
  status icon and the validation of the coach's penalty edit.
- `History` (`history.dfy`): the per-week history of the logged-in user.
  The `forEach` loop fills a dictionary. It is a method whose result is tied
  to the recursive function `TallyOf`. The entries are then built and sorted
  newest first.

Timestamps are integers: milliseconds of local wall-clock time since
1970-01-01, which was a Thursday. A week id is the day number of the week's
Monday. The clock reading `now` and every generated id are parameters.

## Model

| member | source | states |
|---|---|---|
| DateUtils.DayCorrected | utils/dateUtils.ts:3-6 | the result lies in 0..6 and is one less than `getDay` modulo 7, so Sunday (0) gives 6 and any other day d gives d - 1 |
| DateUtils.GetWeekStart | utils/dateUtils.ts:8-14 | `getWeekStart`; specified by `WeekStartIsMondayMidnight` (Monday midnight, never after t, less than 7 days before) and `WeekStartIdempotent` |
| DateUtils.GetWeekEnd | utils/dateUtils.ts:16-22 | `getWeekEnd`; specified by `WeekEndIsSundayLastMillisecond` (Sunday 23:59:59.999, 7 days minus 1 ms after the start) |
| DateUtils.GetWeekId | utils/dateUtils.ts:24-27 | `getWeekId`, as the Monday's day number; specified by `WeekStartIsMondayMidnight` (start = id days) and `SameSpanSameWeek` (one id per Monday-to-Sunday span) |
| DateUtils.WeekStartIsMondayMidnight | utils/dateUtils.ts:8-14 | the week start is a midnight on a Monday; it is never after t and less than 7 days before it; the week id is t's day number minus t's Monday-first position |
| DateUtils.WeekEndIsSundayLastMillisecond | utils/dateUtils.ts:16-22 | the week end is a Sunday at 23:59:59.999; week start <= t <= week end; the end is 7 days minus 1 ms after the start |
| DateUtils.SundayOfWeek | utils/dateUtils.ts:16-22 | moving t by `6 - day` days lands exactly six days after the week's Monday |
| DateUtils.SameSpanSameWeek | utils/dateUtils.ts:24-27 | every instant from a week start up to 7 days later has that same week start and week id |
| DateUtils.WeekStartIdempotent | utils/dateUtils.ts:8-14 | the week start of a week start is itself |
| DateUtils.MondayYesterdayIsPreviousWeek | context/AppContext.tsx:47-51 | on a Monday, the week of "now minus one day" starts exactly 7 days before the current week, and its id is 7 less |
| DateUtils.ReadIntOfIntToString | utils/dateUtils.ts:30-32 | the decimal rendering of any integer reads back as that integer |
| DateUtils.FormatMinutes | utils/dateUtils.ts:29-39 | `formatMinutes`; specified by `FormatMinutesRoundTrip` (the count reads back from every rendering) and `FormatMinutesExamples` |
| DateUtils.ParseShortForm | utils/dateUtils.ts:30-32 | every "N min" rendering of a count below 60 reads back as N |
| DateUtils.ParseWholeHours | utils/dateUtils.ts:33-37 | the "Hh" rendering reads back as 60 * H |
| DateUtils.ParseHoursAndMinutes | utils/dateUtils.ts:33-38 | the "Hh Mm" rendering, with 0 < M < 60, reads back as 60 * H + M |
| DateUtils.FormatMinutesRoundTrip | utils/dateUtils.ts:29-39 | every minute count reads back from its rendering, so H = m div 60 and M = m mod 60 recompose m and no two counts share a rendering |
| DateUtils.FormatMinutesExamples | utils/dateUtils.ts:29-39 | 0 gives "0 min", 45 gives "45 min", 60 gives "1h" and 90 gives "1h 30m" |
| DateUtils.ReminderWindowIsLastSixHours | utils/dateUtils.ts:41-46 | the reminder holds exactly when `now` falls in the last six hours before the week end, that is Sunday from 18:00 |
| DateUtils.IsReminderTime | utils/dateUtils.ts:41-46 | `isReminderTime` with the clock passed in; specified by `ReminderWindowIsLastSixHours` (exactly the last six hours of the week) |
| DataService.Store.InitializeData | services/dataService.ts:40-47 | every absent key gets its default: empty users, activities, chat and ledger; the five seeded types; settings 60 minutes / 5. Present keys keep their values |
| DataService.Store.Users | services/dataService.ts:50 | `getUsers`: the stored list, or empty while the key is absent |
| DataService.Store.Activities | services/dataService.ts:80 | `getActivities`: the stored list, or empty while the key is absent |
| DataService.Store.ActivityTypes | services/dataService.ts:104 | `getActivityTypes`: the stored list, or empty while the key is absent |
| DataService.Store.PenaltyChecks | services/dataService.ts:122 | the stored ledger, or empty while the key is absent |
| DataService.Store.Settings | services/dataService.ts:133 | `getSettings`: the stored settings, or 60 minutes / 5 while the key is absent; `UpdateSettings` reads back through it |
| DataService.Store.ChatMessages | services/dataService.ts:137 | `getChatMessages`: the stored list, or empty while the key is absent |
| DataService.Store.LoggedInUser | services/dataService.ts:117 | `getLoggedInUser`: the stored session, or none; `SetLoggedInUser` and `ClearLoggedInUser` state what it reads after them |
| DataService.Store.AddUser | services/dataService.ts:51-64 | if the name is taken ignoring case, returns None and leaves the users as they were; otherwise returns and appends exactly one user with penalty 0 and the given name, password and coach flag |
| DataService.AppendFreshUsername | services/dataService.ts:51-64 | appending a user whose name is not taken keeps usernames unique ignoring case |
| DataService.FindUserIndex | services/dataService.ts:67 | the result is the first index holding the id, and None exactly when no user has it |
| DataService.ReplaceById | services/dataService.ts:65-72 | the length is kept; the first record with the id becomes the new user and every other record is unchanged; without such a record the list is unchanged |
| DataService.ReplaceFirstOccurrence | services/dataService.ts:65-72 | when the id first occurs at k, the update writes index k |
| DataService.ReplaceKeepsUniqueUsernames | services/dataService.ts:65-72 | an update that keeps the username keeps usernames unique |
| DataService.Store.UpdateUser | services/dataService.ts:65-72 | the users become `ReplaceById` of the old users; the key is untouched when the id is absent |
| DataService.Authenticate | services/dataService.ts:73-77 | returns the first user whose name matches ignoring case and whose password is equal; None exactly when there is none |
| DataService.Store.AddActivity | services/dataService.ts:81-90 | appends one activity stamped with `now`; earlier activities keep their order |
| DataService.ActivitiesInWeekSpec | services/dataService.ts:91-101 | an activity is kept exactly when it is dated in [week start, week start + 7 days), and exactly when its week id is the date's; the filter distributes over concatenation |
| DataService.Store.ActivitiesForWeek | services/dataService.ts:91-101 | `getActivitiesForWeek` over the stored activities; specified by `ActivitiesInWeekSpec` (exactly the activities of the 7-day window) |
| DataService.Store.AddActivityType | services/dataService.ts:105-113 | appends one activity type; earlier types keep their order |
| DataService.Store.SetLoggedInUser | services/dataService.ts:116 | the session holds the user |
| DataService.Store.ClearLoggedInUser | services/dataService.ts:118 | the session is empty |
| DataService.Mark | services/dataService.ts:126-130 | the week is then marked; every other week's flag is unchanged, so a week never marked still reads false; the key set gains only the week |
| DataService.Store.HasPenaltyBeenApplied | services/dataService.ts:121-124 | `hasPenaltyBeenApplied`: true only for a week marked true, false for an absent week; `Mark` states how marking changes it |
| DataService.Store.MarkPenaltyAsApplied | services/dataService.ts:126-130 | the ledger key is written and holds `Mark` of the old ledger |
| DataService.Store.UpdateSettings | services/dataService.ts:134 | the settings are the new ones |
| DataService.Store.AddChatMessage | services/dataService.ts:138-147 | appends one message stamped with `now`; earlier messages keep their order |
| AppContext.Provider.constructor | context/AppContext.tsx:34-35 | the app starts on the login page with no current user |
| AppContext.Provider.RestoreSession | context/AppContext.tsx:91-95 | a stored session becomes the current user and the page becomes the dashboard; without one nothing changes |
| AppContext.Provider.Startup | context/AppContext.tsx:89-97 | every absent key gets its default: the seeded activity types, an empty chat, empty users and ledger, the 60 / 5 settings; present activity types, chat, activities and settings keep their values; a stored session is restored; the users and ledger become `Sweep` of the old ones under the stored or default settings, which are never absent here |
| AppContext.Provider.ApplyPenalties | context/AppContext.tsx:44-70 | the new users and ledger are exactly `Sweep` of the old ones |
| AppContext.Sweep | context/AppContext.tsx:44-70 | `applyPenalties` as a function of users and ledger; specified by `SweepOnlyOnMondays`, `SweepSkipsMarkedWeek`, `SweepTargetsPreviousWeek`, `SweepPenalizesShortfalls`, `SweepAtMostOncePerWeek`, `SweepIdempotent` and `SweepKeepsMarks` |
| AppContext.SweepUsers | context/AppContext.tsx:58-65 | the users after the loop has handled a prefix of the snapshot; specified by `SweepUsersPrefix` |
| AppContext.SweepOnlyOnMondays | context/AppContext.tsx:47 | on any day but Monday the sweep leaves users and ledger unchanged |
| AppContext.SweepSkipsMarkedWeek | context/AppContext.tsx:53 | from any state whose ledger already marks the target week, the sweep changes nothing, whatever was written since |
| AppContext.SweepKeepsMarks | context/AppContext.tsx:67 | a week marked before a sweep is still marked after it |
| AppContext.Provider.ChargeShortfalls | context/AppContext.tsx:58-65 | after the loop, the users are those of one `updateUser` per user of the snapshot below the goal, in order |
| AppContext.SweepUsersPrefix | context/AppContext.tsx:58-65 | with distinct ids, the first k iterations penalize exactly the first k users that are below the goal and leave all others alone |
| AppContext.SweepPenalizesShortfalls | context/AppContext.tsx:53-67 | on a Monday whose previous week is unmarked, and with distinct ids: each user below the goal in that week gains exactly the penalty amount; the others are unchanged; the week gets marked; no other flag changes |
| AppContext.SweepAtMostOncePerWeek | context/AppContext.tsx:53-67 | after one sweep, a sweep on any Monday of the same week changes nothing |
| AppContext.SweepIdempotent | context/AppContext.tsx:44-70 | two sweeps with the same clock reading are one sweep |
| AppContext.SweepTargetsPreviousWeek | context/AppContext.tsx:49-56 | the swept week is the Monday-to-Sunday week just ended: its id is 7 less and its start one week earlier |
| AppContext.ForfeitDoesNotExempt | context/AppContext.tsx:59-62 | adding a zero-minute forfeit does not change whether a user is below the goal |
| AppContext.Provider.GiveUpWeek | context/AppContext.tsx:185-197 | without settings or without the user nothing changes; otherwise the user's penalty grows by the penalty amount and one `gave-up` activity of 0 minutes is appended |
| AppContext.Provider.UpdateUserPenalty | context/AppContext.tsx:150-156 | the user's penalty is set to the new value (not added to) and nothing else changes; nothing changes when the user is unknown |
| AppContext.Provider.Login | context/AppContext.tsx:105-114 | succeeds exactly when some stored user has the credentials; then that user becomes the current user and the stored session, and the page is the dashboard; otherwise nothing changes |
| AppContext.Provider.Logout | context/AppContext.tsx:116-120 | no current user, no stored session, login page |
| AppContext.Provider.Signup | context/AppContext.tsx:122-131 | succeeds exactly when the name is free ignoring case; then the new user is appended and logged in; otherwise nothing changes |
| AppContext.Provider.AddActivity | context/AppContext.tsx:133-138 | with a current user, appends one activity of that user; otherwise nothing changes |
| AppContext.Provider.SendMessage | context/AppContext.tsx:158-168 | with a current user, appends one message under that user's id and name; otherwise nothing changes |
| Dashboard.AnyForfeit | screens/DashboardScreen.tsx:206 | true exactly when some activity has the type `gave-up` |
| Dashboard.CurrentWeekActivities | screens/DashboardScreen.tsx:196-197 | the activities dated from the current week's Monday on; specified by `ForfeitedInSummary` and `SummaryMatchesSweepWindow` |
| Dashboard.Summarize | screens/DashboardScreen.tsx:202-218 | one user's summary; specified by `SummaryStatus`, `SummaryMatchesSweepWindow` and `SummaryExamples` |
| Dashboard.WeeklySummaries | screens/DashboardScreen.tsx:199-220 | no summaries without settings; otherwise one summary per user, in the users' order, with that user's id and username |
| Dashboard.ForfeitedInSummary | screens/DashboardScreen.tsx:196-206 | the summary sees a forfeit exactly when the user logged a `gave-up` dated from the current week's start on |
| Dashboard.SummaryStatus | screens/DashboardScreen.tsx:202-219 | goalMet holds iff the total reaches the goal; achieved iff goalMet; failed iff the goal is missed and the user forfeited; pending iff the goal is missed without a forfeit |
| Dashboard.SummaryMatchesSweepWindow | screens/DashboardScreen.tsx:196-205 | when no activity is dated after `now`, a summary's total is the user's sum over `getActivitiesForWeek(now)`, and goalMet holds iff the sweep would not charge the user |
| Dashboard.SummaryExamples | screens/DashboardScreen.tsx:202-219 | with a 60-minute goal: no activity gives pending; 60 minutes gives achieved; 30 minutes and a forfeit give failed; 60 minutes and a forfeit give achieved |
| Dashboard.TotalPenaltyPot | screens/DashboardScreen.tsx:222-224 | `totalPenaltyPot`; specified by `PotAfterUpdate`, `PotPointwise` and `PotAfterSweep` |
| Dashboard.PotAfterUpdate | screens/DashboardScreen.tsx:222-224 | replacing one user moves the pot by the change in that user's penalty |
| Dashboard.PotPointwise | screens/DashboardScreen.tsx:222-224 | adding an amount to the penalty of some users adds it to the pot once per such user |
| Dashboard.PotAfterSweep | screens/DashboardScreen.tsx:222-224 | with distinct ids, a sweep that runs grows the pot by the penalty amount times the number of users below the goal |
| Dashboard.StatusIcon | screens/DashboardScreen.tsx:27-31 | `getStatusIcon` with the clock passed in; specified by `IconOfSummary` |
| Dashboard.IconOfSummary | screens/DashboardScreen.tsx:27-31 | success mark iff the goal is met; danger mark iff the goal is missed and the user forfeited or it is Sunday from 18:00; the clock otherwise |
| Dashboard.ParseIntPrefix | screens/DashboardScreen.tsx:34 | `parseInt(s, 10)` with NaN as none; specified by `ParseIntPrefixUnsigned` and `ParseIntPrefixNegative` |
| Dashboard.ParseIntPrefixUnsigned | screens/DashboardScreen.tsx:34 | `parseInt` reads digits followed by the end or by a non-digit as the digits' value |
| Dashboard.ParseIntPrefixNegative | screens/DashboardScreen.tsx:34 | `parseInt` reads "-", then digits, then the end or a non-digit, as the negated value |
| Dashboard.PenaltyUpdate | screens/DashboardScreen.tsx:33-39 | a forwarded value is the parse of the text and is at least 0; nothing is forwarded exactly when the parse fails or is negative |
| Dashboard.PenaltyUpdateOfNat | screens/DashboardScreen.tsx:33-39 | the rendering of any natural number, alone or followed by text that does not start with a digit, is forwarded as that number |
| Dashboard.PenaltyUpdateRejectsNegative | screens/DashboardScreen.tsx:33-39 | a negative number is never forwarded |
| History.ActiveInCounted | screens/HistoryScreen.tsx:21 | the user has a non-forfeit activity in week w exactly when the filtered list has an activity in week w |
| History.TallyOf | screens/HistoryScreen.tsx:24-30 | the dictionary and key order the loop builds; specified by `TallyOfTallied` |
| History.AccumulateWeeks | screens/HistoryScreen.tsx:24-30 | the loop's dictionary and key order are `TallyOf` of the activities, so each week with an activity is a key once; its value is that week's minutes and the values add up to all the minutes |
| History.TallyStep | screens/HistoryScreen.tsx:24-30 | recording one more activity keeps the dictionary a tally of the longer list |
| History.TallyOfTallied | screens/HistoryScreen.tsx:24-30 | the recorded dictionary lists each week with an activity once; its totals are the per-week sums; they add up to all the minutes |
| History.EntriesSum | screens/HistoryScreen.tsx:32-38 | the entries' totals add up to the dictionary's values |
| History.Entries | screens/HistoryScreen.tsx:32-38 | `Object.entries(weeks).map(...)`; specified by `EntriesSum` and `EntriesOfTally` |
| History.SortNewestFirst | screens/HistoryScreen.tsx:39 | the sort by week id, newest first; specified by `SortSpec` |
| History.SortSpec | screens/HistoryScreen.tsx:39 | sorting entries of distinct weeks keeps the same entries and their number; the result is strictly newest first with the same total |
| History.EntriesOfTally | screens/HistoryScreen.tsx:32-39 | the sorted entries are strictly newest first; there is one per week with an activity; each has that week's total and goalMet iff the total reaches the goal; all the minutes are accounted for |
| History.ComputeHistory | screens/HistoryScreen.tsx:18-40 | empty without a user or settings; otherwise strictly newest first; a week appears iff the user has a non-forfeit activity in it; its total is that week's non-forfeit minutes; goalMet iff the total reaches the goal; the totals add up to all non-forfeit minutes |

## Left out

- Storage: `localStorage`, JSON (de)serialisation and the try/catch fallbacks. The store is in-memory fields. A present key always parses.
- Id generation and clocks: `Date.now().toString()` ids and `new Date()` stamps are method parameters. Ids are not assumed unique, except where a lemma says so.
- Time zones and daylight saving time: the model uses one fixed offset, so every day lasts 24 hours.
- Week id format: the week id is the Monday's day number. The `toISOString().split('T')[0]` UTC slicing is not modelled. Neither is the `new Date(weekId)` re-parse in the history screen.
- `startDate` of a history entry: a `toLocaleDateString` display string, not kept. The same goes for `toLocaleTimeString`.
- Case folding: `toLowerCase` is modelled on the ASCII letters only.
- `parseInt`: modelled on integers of any size. JavaScript's loss of precision beyond 2^53 and its exponent forms are not modelled.
- `formatMinutes`: modelled on whole minutes only.
- The AI coach tip: the Gemini service and `generateCoachTip` are a network client.
- `refreshData`, the 15-second polling, the React state hooks and the chat re-sort by timestamp.
  - The context's cached `users` is taken to be the store's list.
  - The cached `settings` is a parameter that is `None` until loaded.
- The race where two clients both pass the ledger check before either marks it. This is concurrency.
- The progress-bar percentage: floating point.
- The dashboard's display re-sort of summaries by minutes, `currentUserSummary` and the `showReminder` effect: presentation over the modelled summaries.
- Presentation and form screens: icons, buttons, header, chat, login, signup and add-activity forms.
- `getActivityTypes` defaults to an empty list when the key is absent, as the code does. The seeded catalogue is written only by `initializeData`.
- AppContext.SweepPenalizesShortfalls: stated for distinct user ids only. With duplicate ids the model still replays the source's first-match `updateUser` writes, but no lemma describes that outcome.
- Dashboard.PotAfterSweep: stated for distinct user ids only, for the same reason.
- AppContext.SweepUsersPrefix: stated for distinct user ids only, for the same reason.

=== FILE: app_context.dfy ===
/** The application state and its actions (context/AppContext.tsx): the
    once-per-week penalty sweep, forfeiting a week, the coach's penalty
    override, and the session actions.

    The screens' cached copy of the users is taken to be the store's own
    list; the cached settings, which are absent until the first refresh,
    are passed in. */
module AppContext {
  import opened Types
  import opened DateUtils
  import opened DataService

  datatype Page = LoginPage | SignupPage | DashboardPage | AddActivityPage | HistoryPage

  // ----------------------------------------------------- sweep specification

  /** The sweep runs on a Monday and assesses the day before. */
  function TargetDate(now: Timestamp): Timestamp
  {
    ShiftDays(now, -1)
  }

  function TargetWeekId(now: Timestamp): WeekId
  {
    GetWeekId(TargetDate(now))
  }

  /** The user's total minutes among `weekActs` falls short of the goal. */
  predicate BelowGoal(u: User, weekActs: seq<Activity>, s: AppSettings)
  {
    SumDurations(ActivitiesOf(weekActs, u.id)) < s.weeklyGoalMinutes
  }

  /** `{ ...u, cumulativePenalty: u.cumulativePenalty + settings.penaltyAmount }`. */
  function Penalized(u: User, s: AppSettings): User
  {
    u.(cumulativePenalty := u.cumulativePenalty + s.penaltyAmount)
  }

  /** The user list after the sweep's loop has handled `pending`, one
      `updateUser` per user below the goal. */
  function SweepUsers(current: seq<User>, pending: seq<User>, weekActs: seq<Activity>, s: AppSettings)
    : seq<User>
    decreases |pending|
  {
    if pending == [] then current
    else
      var before := SweepUsers(current, pending[..|pending| - 1], weekActs, s);
      var u := pending[|pending| - 1];
      if BelowGoal(u, weekActs, s) then ReplaceById(before, Penalized(u, s)) else before
  }

  lemma SweepUsersStep(current: seq<User>, pending: seq<User>, i: nat, weekActs: seq<Activity>, s: AppSettings)
    requires i < |pending|
    ensures SweepUsers(current, pending[..i + 1], weekActs, s)
      == var before := SweepUsers(current, pending[..i], weekActs, s);
         if BelowGoal(pending[i], weekActs, s) then ReplaceById(before, Penalized(pending[i], s)) else before
  {
    assert pending[..i + 1][..i] == pending[..i];
  }

  /** What the sweep reads and writes: the users and the ledger. */
  datatype SweepState = SweepState(users: seq<User>, checks: map<WeekId, bool>)

  /** `applyPenalties` as a function of the state it starts from. */
  function Sweep(st: SweepState, activities: seq<Activity>, settings: Option<AppSettings>, now: Timestamp)
    : SweepState
  {
    if settings.None? || GetDay(now) != 1 then st
    else
      var lastWeekId := TargetWeekId(now);
      if Applied(st.checks, lastWeekId) then st
      else
        var weekActs := ActivitiesInWeek(activities, TargetDate(now));
        SweepState(SweepUsers(st.users, st.users, weekActs, settings.value), Mark(st.checks, lastWeekId))
  }

  predicate UniqueIds(users: seq<User>)
  {
    forall i, j :: 0 <= i < j < |users| ==> users[i].id != users[j].id
  }

  /** The users with the first `k` of them penalized where below the goal. */
  function PenalizedPrefix(users: seq<User>, k: nat, weekActs: seq<Activity>, s: AppSettings): (r: seq<User>)
    requires k <= |users|
    ensures |r| == |users|
  {
    seq(|users|, i requires 0 <= i < |users| =>
      if i < k && BelowGoal(users[i], weekActs, s) then Penalized(users[i], s) else users[i])
  }

  lemma {:induction false} SweepUsersPrefix(users: seq<User>, k: nat, weekActs: seq<Activity>, s: AppSettings)
    requires UniqueIds(users)
    requires k <= |users|
    ensures SweepUsers(users, users[..k], weekActs, s) == PenalizedPrefix(users, k, weekActs, s)
  {
    if k == 0 {
      assert PenalizedPrefix(users, 0, weekActs, s) == users;
    } else {
      assert users[..k][..k - 1] == users[..k - 1];
      SweepUsersPrefix(users, k - 1, weekActs, s);
      var before := PenalizedPrefix(users, k - 1, weekActs, s);
      var u := users[k - 1];
      if BelowGoal(u, weekActs, s) {
        forall j | 0 <= j < k - 1
          ensures before[j].id != u.id
        {
          assert before[j].id == users[j].id;
        }
        ReplaceFirstOccurrence(before, Penalized(u, s), k - 1);
        assert before[k - 1 := Penalized(u, s)] == PenalizedPrefix(users, k, weekActs, s);
      } else {
        assert before == PenalizedPrefix(users, k, weekActs, s);
      }
    }
  }

  /** With distinct user ids, the sweep adds the penalty amount exactly once
      to every user below the goal in the week that ended the day before,
      leaves every other user as it was, and records the week in the ledger. */
  lemma SweepPenalizesShortfalls(st: SweepState, activities: seq<Activity>, s: AppSettings, now: Timestamp)
    requires UniqueIds(st.users)
    requires GetDay(now) == 1 && !Applied(st.checks, TargetWeekId(now))
    ensures var r := Sweep(st, activities, Some(s), now);
      var weekActs := ActivitiesInWeek(activities, TargetDate(now));
      && Applied(r.checks, TargetWeekId(now))
      && (forall w :: w != TargetWeekId(now) ==> Applied(r.checks, w) == Applied(st.checks, w))
      && |r.users| == |st.users|
      && forall i :: 0 <= i < |st.users| ==>
        r.users[i] == if BelowGoal(st.users[i], weekActs, s) then Penalized(st.users[i], s) else st.users[i]
  {
    var weekActs := ActivitiesInWeek(activities, TargetDate(now));
    assert st.users[..|st.users|] == st.users;
    SweepUsersPrefix(st.users, |st.users|, weekActs, s);
  }

  /** Once the sweep has run for a Monday, running it again on any Monday
      that assesses the same week changes nothing: penalties are applied at
      most once per week. */
  lemma SweepAtMostOncePerWeek(st: SweepState, activities: seq<Activity>, settings: Option<AppSettings>,
                               now: Timestamp, later: Timestamp)
    requires GetDay(now) == 1 && GetDay(later) == 1
    requires GetWeekId(now) == GetWeekId(later)
    ensures var once := Sweep(st, activities, settings, now);
      Sweep(once, activities, settings, later) == once
  {
    MondayYesterdayIsPreviousWeek(now);
    MondayYesterdayIsPreviousWeek(later);
    assert TargetWeekId(now) == TargetWeekId(later);
  }

  /** Calling the sweep twice with the same clock reading is the same as
      calling it once. */
  lemma SweepIdempotent(st: SweepState, activities: seq<Activity>, settings: Option<AppSettings>, now: Timestamp)
    ensures var once := Sweep(st, activities, settings, now);
      Sweep(once, activities, settings, now) == once
  {
    if GetDay(now) == 1 {
      SweepAtMostOncePerWeek(st, activities, settings, now, now);
    }
  }

  /** The sweep does nothing on any day but Monday. */
  lemma SweepOnlyOnMondays(st: SweepState, activities: seq<Activity>, settings: Option<AppSettings>, now: Timestamp)
    requires GetDay(now) != 1
    ensures Sweep(st, activities, settings, now) == st
  {
  }

  /** Whatever happened since, a target week the ledger already marks leaves
      the users and the ledger as they are. */
  lemma SweepSkipsMarkedWeek(st: SweepState, activities: seq<Activity>, settings: Option<AppSettings>, now: Timestamp)
    requires Applied(st.checks, TargetWeekId(now))
    ensures Sweep(st, activities, settings, now) == st
  {
  }

  /** A sweep never clears a mark: a week once marked stays marked. */
  lemma SweepKeepsMarks(st: SweepState, activities: seq<Activity>, settings: Option<AppSettings>, now: Timestamp,
                        w: WeekId)
    requires Applied(st.checks, w)
    ensures Applied(Sweep(st, activities, settings, now).checks, w)
  {
  }

  /** The week the sweep assesses is the Monday-to-Sunday week just ended. */
  lemma SweepTargetsPreviousWeek(now: Timestamp)
    requires GetDay(now) == 1
    ensures TargetWeekId(now) == GetWeekId(now) - 7
    ensures GetWeekStart(TargetDate(now)) == GetWeekStart(now) - MsPerWeek
  {
    MondayYesterdayIsPreviousWeek(now);
  }

  /** A forfeit (type `gave-up`, zero minutes) does not change the user's
      total, so it never exempts the user from the sweep. */
  lemma ForfeitDoesNotExempt(u: User, weekActs: seq<Activity>, s: AppSettings, forfeit: Activity)
    requires forfeit.activityTypeId == GaveUp && forfeit.duration == 0
    ensures BelowGoal(u, weekActs + [forfeit], s) == BelowGoal(u, weekActs, s)
  {
    ActivitiesOfAppend(weekActs, [forfeit], u.id);
    var tail := ActivitiesOf([forfeit], u.id);
    assert SumDurations(tail) == 0 by {
      assert [forfeit][..0] == [];
      assert tail == [] || tail == [forfeit];
    }
    SumDurationsAppend(ActivitiesOf(weekActs, u.id), tail);
  }

  // ----------------------------------------------------------- the context

  class Provider {
    const store: Store
    var currentUser: Option<User>
    var page: Page

    constructor (store: Store)
      ensures this.store == store && currentUser == None && page == LoginPage
    {
      this.store := store;
      currentUser := None;
      page := LoginPage;
    }

    /** The startup effect's session restore: a stored session becomes the
        current user and opens the dashboard. */
    method RestoreSession()
      modifies this`currentUser, this`page
      ensures store.LoggedInUser().Some? ==> currentUser == store.LoggedInUser() && page == DashboardPage
      ensures store.LoggedInUser().None? ==> currentUser == old(currentUser) && page == old(page)
    {
      var loggedInUser := store.LoggedInUser();
      if loggedInUser.Some? {
        currentUser := loggedInUser;
        page := DashboardPage;
      }
    }

    /** The startup effect: fills the absent keys with their defaults,
        restores a stored session, then sweeps with the stored settings,
        which `getSettings` always supplies (the default when absent). */
    method Startup(now: Timestamp)
      modifies store`usersRecord, store`activitiesRecord, store`activityTypesRecord
      modifies store`penaltyChecksRecord, store`settingsRecord, store`chatRecord
      modifies this`currentUser, this`page
      ensures store.Activities() == old(store.Activities()) && store.Settings() == old(store.Settings())
      ensures store.usersRecord.Some? && store.activitiesRecord.Some? && store.activityTypesRecord.Some?
      ensures store.penaltyChecksRecord.Some? && store.settingsRecord.Some? && store.chatRecord.Some?
      ensures store.activityTypesRecord
        == if old(store.activityTypesRecord).Some? then old(store.activityTypesRecord) else Some(InitialActivityTypes)
      ensures store.chatRecord == if old(store.chatRecord).Some? then old(store.chatRecord) else Some([])
      ensures old(store.LoggedInUser()).Some? ==> currentUser == old(store.LoggedInUser()) && page == DashboardPage
      ensures old(store.LoggedInUser()).None? ==> currentUser == old(currentUser) && page == old(page)
      ensures SweepState(store.Users(), store.PenaltyChecks())
        == Sweep(SweepState(old(store.Users()), old(store.PenaltyChecks())), old(store.Activities()),
                 Some(old(store.Settings())), now)
    {
      store.InitializeData();
      RestoreSession();
      var settings := store.Settings();
      ApplyPenalties(Some(settings), now);
    }

    /** `applyPenalties(appSettings)`, run at startup with the clock reading
        `now`. */
    method ApplyPenalties(appSettings: Option<AppSettings>, now: Timestamp)
      modifies store`usersRecord, store`penaltyChecksRecord
      ensures SweepState(store.Users(), store.PenaltyChecks())
        == Sweep(SweepState(old(store.Users()), old(store.PenaltyChecks())), store.Activities(), appSettings, now)
      ensures old(store.usersRecord).Some? ==> store.usersRecord.Some?
      ensures old(store.penaltyChecksRecord).Some? ==> store.penaltyChecksRecord.Some?
    {
      if appSettings.None? { return; }
      var settings := appSettings.value;
      if GetDay(now) != 1 { return; }

      var lastWeekDate := ShiftDays(now, -1);
      var lastWeekId := GetWeekId(lastWeekDate);
      if store.HasPenaltyBeenApplied(lastWeekId) { return; }

      var allUsers := store.Users();
      var lastWeekActivities := store.ActivitiesForWeek(lastWeekDate);

      ChargeShortfalls(allUsers, lastWeekActivities, settings);
      store.MarkPenaltyAsApplied(lastWeekId);
    }

    /** The sweep's `for (const user of allUsers)` loop: one `updateUser` per
        user of the snapshot `allUsers` whose total falls short of the goal. */
    method ChargeShortfalls(allUsers: seq<User>, lastWeekActivities: seq<Activity>, settings: AppSettings)
      requires store.Users() == allUsers
      modifies store`usersRecord
      ensures store.Users() == SweepUsers(allUsers, allUsers, lastWeekActivities, settings)
      ensures old(store.usersRecord).Some? ==> store.usersRecord.Some?
    {
      ghost var present := store.usersRecord.Some?;
      var i := 0;
      while i < |allUsers|
        invariant 0 <= i <= |allUsers|
        invariant store.Users() == SweepUsers(allUsers, allUsers[..i], lastWeekActivities, settings)
        invariant present ==> store.usersRecord.Some?
      {
        var user := allUsers[i];
        var userActivities := ActivitiesOf(lastWeekActivities, user.id);
        var totalMinutes := SumDurations(userActivities);
        ghost var before := store.Users();
        SweepUsersStep(allUsers, allUsers, i, lastWeekActivities, settings);
        if totalMinutes < settings.weeklyGoalMinutes {
          store.UpdateUser(Penalized(user, settings));
          assert store.Users() == ReplaceById(before, Penalized(user, settings));
        }
        i := i + 1;
      }
      assert allUsers[..|allUsers|] == allUsers;
    }

    /** `giveUpWeek(userId)`: charges the penalty at once and logs a
        zero-minute forfeit; does nothing without settings or without the
        user. */
    method GiveUpWeek(settings: Option<AppSettings>, userId: string, activityId: string, now: Timestamp)
      modifies store`usersRecord, store`activitiesRecord
      ensures var k := FindUserIndex(old(store.Users()), userId);
        if settings.None? || k.None? then
          store.usersRecord == old(store.usersRecord) && store.activitiesRecord == old(store.activitiesRecord)
        else
          var users := old(store.Users());
          && store.Users() == users[k.value := Penalized(users[k.value], settings.value)]
          && store.Activities() == old(store.Activities()) + [Activity(activityId, userId, GaveUp, 0, now, None)]
    {
      if settings.None? { return; }
      var k := FindUserIndex(store.Users(), userId);
      if k.Some? {
        var user := store.Users()[k.value];
        store.UpdateUser(Penalized(user, settings.value));
        var _ := store.AddActivity(user.id, GaveUp, 0, None, activityId, now);
      }
    }

    /** `updateUserPenalty`: sets (does not add) the user's penalty. */
    method UpdateUserPenalty(userId: string, newPenalty: int)
      modifies store`usersRecord
      ensures var k := FindUserIndex(old(store.Users()), userId);
        if k.None? then store.usersRecord == old(store.usersRecord)
        else
          var users := old(store.Users());
          store.Users() == users[k.value := users[k.value].(cumulativePenalty := newPenalty)]
    {
      var k := FindUserIndex(store.Users(), userId);
      if k.Some? {
        var user := store.Users()[k.value];
        store.UpdateUser(user.(cumulativePenalty := newPenalty));
      }
    }

    /** `login`: succeeds exactly when some stored user has these credentials;
        on success the first such user becomes the current and stored
        session, otherwise nothing changes. */
    method Login(username: string, password: string) returns (ok: bool)
      modifies this`currentUser, this`page, store`loggedInUserRecord
      ensures ok <==> exists k :: 0 <= k < |store.Users()| && Credentials(store.Users()[k], username, password)
      ensures ok ==> currentUser == Authenticate(old(store.Users()), username, password)
      ensures ok ==> (currentUser.Some? && currentUser.value in store.Users()
        && Credentials(currentUser.value, username, password)
        && store.LoggedInUser() == currentUser && page == DashboardPage)
      ensures !ok ==> (currentUser == old(currentUser) && page == old(page)
        && store.loggedInUserRecord == old(store.loggedInUserRecord))
    {
      var user := Authenticate(store.Users(), username, password);
      if user.Some? {
        ghost var k :| 0 <= k < |store.Users()| && store.Users()[k] == user.value
          && Credentials(store.Users()[k], username, password);
        currentUser := user;
        store.SetLoggedInUser(user.value);
        page := DashboardPage;
        assert store.Users() == old(store.Users());
        assert 0 <= k < |store.Users()| && Credentials(store.Users()[k], username, password);
        return true;
      }
      return false;
    }

    /** `logout`: forgets the current user and the stored session. */
    method Logout()
      modifies this`currentUser, this`page, store`loggedInUserRecord
      ensures currentUser == None && store.LoggedInUser() == None && page == LoginPage
    {
      currentUser := None;
      store.ClearLoggedInUser();
      page := LoginPage;
    }

    /** `signup`: creates the account unless the name is taken, and logs the
        new user in. */
    method Signup(username: string, password: string, isCoach: bool, id: string, now: Timestamp)
      returns (ok: bool)
      modifies this`currentUser, this`page, store`usersRecord, store`loggedInUserRecord
      ensures ok <==> !old(UsernameTaken(store.Users(), username))
      ensures ok ==> var u := User(id, username, Some(password), isCoach, 0, now);
        && store.Users() == old(store.Users()) + [u]
        && currentUser == Some(u) && store.LoggedInUser() == Some(u) && page == DashboardPage
      ensures !ok ==> (currentUser == old(currentUser) && page == old(page)
        && store.usersRecord == old(store.usersRecord)
        && store.loggedInUserRecord == old(store.loggedInUserRecord))
    {
      var newUser := store.AddUser(username, password, isCoach, id, now);
      if newUser.Some? {
        currentUser := newUser;
        store.SetLoggedInUser(newUser.value);
        page := DashboardPage;
        return true;
      }
      return false;
    }

    /** `addActivity`: logs an activity for the current user, if any. */
    method AddActivity(activityTypeId: string, duration: int, comment: Option<string>, id: string, now: Timestamp)
      modifies store`activitiesRecord
      ensures currentUser.None? ==> store.activitiesRecord == old(store.activitiesRecord)
      ensures currentUser.Some? ==> (store.Activities()
        == old(store.Activities()) + [Activity(id, currentUser.value.id, activityTypeId, duration, now, comment)])
    {
      if currentUser.Some? {
        var _ := store.AddActivity(currentUser.value.id, activityTypeId, duration, comment, id, now);
      }
    }

    /** `sendMessage`: posts under the current user's id and name, if any. */
    method SendMessage(message: string, id: string, now: Timestamp)
      modifies store`chatRecord
      ensures currentUser.None? ==> store.chatRecord == old(store.chatRecord)
      ensures currentUser.Some? ==> (store.ChatMessages() == old(store.ChatMessages())
        + [ChatMessage(id, currentUser.value.id, currentUser.value.username, message, now)])
    {
      if currentUser.Some? {
        var _ := store.AddChatMessage(currentUser.value.id, currentUser.value.username, message, id, now);
      }
    }
  }
}

=== FILE: dashboard.dfy ===
/** What the dashboard derives from the shared state
    (screens/DashboardScreen.tsx): the weekly summaries, the penalty pot,
    the status icon and the coach's penalty edit. The clock reading `now`
    is passed in. */
module Dashboard {
  import opened Types
  import opened DateUtils
  import opened DataService
  import opened AppContext

  // -------------------------------------------------------- weekly summaries

  /** `new Date(a.date) >= currentWeekStart`: from the current week's Monday
      on, with no upper bound. */
  predicate SinceWeekStart(a: Activity, now: Timestamp)
  {
    a.date >= GetWeekStart(now)
  }

  function CurrentWeekActivities(activities: seq<Activity>, now: Timestamp): seq<Activity>
  {
    Filter(activities, (a: Activity) => SinceWeekStart(a, now))
  }

  /** `userActivities.some(a => a.activityTypeId === 'gave-up')`. */
  function AnyForfeit(acts: seq<Activity>): (r: bool)
    ensures r <==> exists i :: 0 <= i < |acts| && acts[i].activityTypeId == GaveUp
  {
    if acts == [] then false
    else acts[0].activityTypeId == GaveUp || AnyForfeit(acts[1..])
  }

  /** The summary of one user over the current week's activities. */
  function Summarize(u: User, weekActivities: seq<Activity>, s: AppSettings): WeeklySummary
  {
    var userActivities := ActivitiesOf(weekActivities, u.id);
    var totalMinutes := SumDurations(userActivities);
    var goalMet := totalMinutes >= s.weeklyGoalMinutes;
    var gaveUp := AnyForfeit(userActivities);
    var status := if goalMet then Achieved else if gaveUp then Failed else Pending;
    WeeklySummary(u.id, u.username, totalMinutes, goalMet, status)
  }

  /** The `weeklySummaries` memo: one summary per user, in the users' order;
      none while the settings are not loaded. */
  function WeeklySummaries(users: seq<User>, activities: seq<Activity>, settings: Option<AppSettings>,
                           now: Timestamp): (r: seq<WeeklySummary>)
    ensures settings.None? ==> r == []
    ensures settings.Some? ==> (|r| == |users|
      && forall i :: 0 <= i < |users| ==> r[i].userId == users[i].id && r[i].username == users[i].username)
  {
    if settings.None? then []
    else
      var weekActivities := CurrentWeekActivities(activities, now);
      seq(|users|, i requires 0 <= i < |users| => Summarize(users[i], weekActivities, settings.value))
  }

  /** The user logged a forfeit dated in the current week or later. */
  predicate Forfeited(activities: seq<Activity>, userId: string, now: Timestamp)
  {
    exists a :: a in activities && a.userId == userId && SinceWeekStart(a, now) && a.activityTypeId == GaveUp
  }

  lemma ForfeitedInSummary(u: User, activities: seq<Activity>, now: Timestamp)
    ensures AnyForfeit(ActivitiesOf(CurrentWeekActivities(activities, now), u.id))
      <==> Forfeited(activities, u.id, now)
  {
    var weekActivities := CurrentWeekActivities(activities, now);
    var own := ActivitiesOf(weekActivities, u.id);
    FilterMembers(activities, (a: Activity) => SinceWeekStart(a, now));
    FilterMembers(weekActivities, (a: Activity) => a.userId == u.id);
    if AnyForfeit(own) {
      var j :| 0 <= j < |own| && own[j].activityTypeId == GaveUp;
      assert own[j] in own;
      assert own[j] in weekActivities && own[j].userId == u.id;
    }
    if Forfeited(activities, u.id, now) {
      var a :| a in activities && a.userId == u.id && SinceWeekStart(a, now) && a.activityTypeId == GaveUp;
      assert a in weekActivities;
      assert a in own;
      var j :| 0 <= j < |own| && own[j] == a;
    }
  }

  /** The status rules: achieved exactly when the goal is met, whatever was
      forfeited; failed exactly when the goal is not met and the user
      forfeited this week; pending otherwise. */
  lemma SummaryStatus(users: seq<User>, activities: seq<Activity>, s: AppSettings, now: Timestamp, i: nat)
    requires i < |users|
    ensures var r := WeeklySummaries(users, activities, Some(s), now)[i];
      && (r.goalMet <==> r.totalMinutes >= s.weeklyGoalMinutes)
      && (r.status == Achieved <==> r.goalMet)
      && (r.status == Failed <==> !r.goalMet && Forfeited(activities, users[i].id, now))
      && (r.status == Pending <==> !r.goalMet && !Forfeited(activities, users[i].id, now))
  {
    ForfeitedInSummary(users[i], activities, now);
  }

  /** When no activity is dated after `now`, the dashboard's open-ended window
      holds exactly the activities of `now`'s Monday-to-Sunday week, so a
      summary's total is what `getActivitiesForWeek` yields for the user, and
      its goal is met exactly when the weekly sweep would not charge them. */
  lemma SummaryMatchesSweepWindow(users: seq<User>, activities: seq<Activity>, s: AppSettings,
                                  now: Timestamp, i: nat)
    requires i < |users|
    requires forall a :: a in activities ==> a.date <= now
    ensures var r := WeeklySummaries(users, activities, Some(s), now)[i];
      var weekActs := ActivitiesInWeek(activities, now);
      && r.totalMinutes == SumDurations(ActivitiesOf(weekActs, users[i].id))
      && (r.goalMet <==> !BelowGoal(users[i], weekActs, s))
  {
    WeekStartIsMondayMidnight(now);
    FilterAgree(activities, (a: Activity) => SinceWeekStart(a, now), (a: Activity) => InWeekOf(a, now));
  }

  /** Four sample weeks with a 60-minute goal: no activity gives pending; 60
      minutes gives achieved; 30 minutes and a forfeit gives failed; 60
      minutes and a forfeit gives achieved. */
  lemma SummaryExamples(u: User, run: Activity, forfeit: Activity)
    requires run.userId == u.id && run.activityTypeId != GaveUp
    requires forfeit.userId == u.id && forfeit.activityTypeId == GaveUp && forfeit.duration == 0
    ensures var s := AppSettings(60, 5);
      && Summarize(u, [], s).status == Pending
      && (run.duration == 60 ==> Summarize(u, [run], s).status == Achieved)
      && (run.duration == 30 ==> Summarize(u, [run, forfeit], s).status == Failed)
      && (run.duration == 60 ==> Summarize(u, [run, forfeit], s).status == Achieved)
  {
    ActivitiesOfSingle(run, u.id);
    ActivitiesOfSingle(forfeit, u.id);
    ActivitiesOfAppend([run], [forfeit], u.id);
    assert [run] + [forfeit] == [run, forfeit];
    var both := [run, forfeit];
    assert both[..1] == [run] && [run][..0] == [];
    assert SumDurations([run]) == run.duration;
    assert SumDurations(both) == run.duration;
    assert both[1].activityTypeId == GaveUp;
  }

  // -------------------------------------------------------------- the pot

  /** `users.reduce((sum, user) => sum + user.cumulativePenalty, 0)`. */
  function TotalPenaltyPot(users: seq<User>): int
  {
    if users == [] then 0 else TotalPenaltyPot(users[..|users| - 1]) + users[|users| - 1].cumulativePenalty
  }

  /** Replacing one user changes the pot by the change in that user's
      penalty: a coach override moves it by the difference, a forfeit raises
      it by the penalty amount. */
  lemma {:induction false} PotAfterUpdate(users: seq<User>, k: nat, u: User)
    requires k < |users|
    ensures TotalPenaltyPot(users[k := u])
      == TotalPenaltyPot(users) - users[k].cumulativePenalty + u.cumulativePenalty
  {
    var after := users[k := u];
    var n := |users| - 1;
    assert after[..n] == if k == n then users[..n] else users[..n][k := u];
    if k < n {
      PotAfterUpdate(users[..n], k, u);
    }
  }

  /** How many of `users` satisfy `charged`. */
  function CountWhere(users: seq<User>, charged: User -> bool): (r: nat)
    ensures r <= |users|
  {
    if users == [] then 0
    else CountWhere(users[..|users| - 1], charged) + (if charged(users[|users| - 1]) then 1 else 0)
  }

  /** How many of `users` fall short of the goal. */
  function CountBelowGoal(users: seq<User>, weekActs: seq<Activity>, s: AppSettings): nat
  {
    CountWhere(users, (u: User) => BelowGoal(u, weekActs, s))
  }

  /** Multiplication distributes over addition (kept apart so the solver sees it alone). */
  lemma Distribute(a: int, b: int, c: int)
    ensures a * (b + c) == a * b + a * c
  {
  }

  /** Adding `amount` to the penalty of the users `charged` picks out adds it
      to the pot once per such user. */
  lemma {:induction false} PotPointwise(before: seq<User>, after: seq<User>, charged: User -> bool, amount: int)
    requires |after| == |before|
    requires forall i :: 0 <= i < |before| ==>
      after[i].cumulativePenalty == before[i].cumulativePenalty + (if charged(before[i]) then amount else 0)
    ensures TotalPenaltyPot(after) == TotalPenaltyPot(before) + amount * CountWhere(before, charged)
  {
    if before != [] {
      var n := |before| - 1;
      var before', after' := before[..n], after[..n];
      assert forall i :: 0 <= i < n ==> before'[i] == before[i] && after'[i] == after[i];
      PotPointwise(before', after', charged, amount);
      var c, extra := CountWhere(before', charged), if charged(before[n]) then 1 else 0;
      assert TotalPenaltyPot(after) == TotalPenaltyPot(after') + after[n].cumulativePenalty;
      assert TotalPenaltyPot(before) == TotalPenaltyPot(before') + before[n].cumulativePenalty;
      assert CountWhere(before, charged) == c + extra;
      assert after[n].cumulativePenalty == before[n].cumulativePenalty + amount * extra;
      Distribute(amount, c, extra);
    }
  }

  /** With distinct user ids, a sweep that runs grows the pot by the penalty
      amount once per user below the goal. */
  lemma PotAfterSweep(st: SweepState, activities: seq<Activity>, s: AppSettings, now: Timestamp)
    requires UniqueIds(st.users)
    requires GetDay(now) == 1 && !Applied(st.checks, TargetWeekId(now))
    ensures TotalPenaltyPot(Sweep(st, activities, Some(s), now).users)
      == TotalPenaltyPot(st.users)
        + s.penaltyAmount * CountBelowGoal(st.users, ActivitiesInWeek(activities, TargetDate(now)), s)
  {
    SweepPenalizesShortfalls(st, activities, s, now);
    var weekActs := ActivitiesInWeek(activities, TargetDate(now));
    PotPointwise(st.users, Sweep(st, activities, Some(s), now).users, (u: User) => BelowGoal(u, weekActs, s),
      s.penaltyAmount);
  }

  // ----------------------------------------------------------- status icon

  datatype Icon = CheckCircle | XCircle | Clock

  /** `getStatusIcon`, with the clock reading passed in. */
  function StatusIcon(status: Status, now: Timestamp): Icon
  {
    var hasGivenUp := status == Failed;
    if status == Achieved then CheckCircle
    else if hasGivenUp || (IsReminderTime(now) && status == Pending) then XCircle
    else Clock
  }

  /** A summary shows the success mark exactly when its goal is met, the
      danger mark exactly when its goal is not met and the user either
      forfeited or is within the last six hours of the week, and the clock
      otherwise. */
  lemma IconOfSummary(users: seq<User>, activities: seq<Activity>, s: AppSettings, now: Timestamp, i: nat)
    requires i < |users|
    ensures var r := WeeklySummaries(users, activities, Some(s), now)[i];
      var lateSunday := GetWeekEnd(now) - 6 * MsPerHour < now;
      && (StatusIcon(r.status, now) == CheckCircle <==> r.goalMet)
      && (StatusIcon(r.status, now) == XCircle
          <==> !r.goalMet && (Forfeited(activities, users[i].id, now) || lateSunday))
      && (StatusIcon(r.status, now) == Clock
          <==> !r.goalMet && !Forfeited(activities, users[i].id, now) && !lateSunday)
  {
    SummaryStatus(users, activities, s, now, i);
    ReminderWindowIsLastSixHours(now);
  }

  // ---------------------------------------------------------- penalty edit

  /** The characters `parseInt` skips before a number: the ECMAScript
      white space and line terminators. */
  predicate IsJsSpace(c: char)
  {
    || c == ' ' || '\t' <= c <= '\r' || c == '\U{00A0}' || c == '\U{1680}'
    || '\U{2000}' <= c <= '\U{200A}' || c == '\U{2028}' || c == '\U{2029}'
    || c == '\U{202F}' || c == '\U{205F}' || c == '\U{3000}' || c == '\U{FEFF}'
  }

  function TrimStart(s: string): (r: string)
    ensures |r| <= |s| && r == s[|s| - |r|..]
    ensures r != [] ==> !IsJsSpace(r[0])
  {
    if s != [] && IsJsSpace(s[0]) then TrimStart(s[1..]) else s
  }

  /** The longest run of digits at the front of `s`. */
  function DigitPrefix(s: string): (r: string)
    ensures AllDigits(r) && |r| <= |s| && r == s[..|r|]
    ensures |r| < |s| ==> !IsDigit(s[|r|])
  {
    if s != [] && IsDigit(s[0]) then [s[0]] + DigitPrefix(s[1..]) else []
  }

  /** An optional sign, then as many digits as follow. */
  function SignedDigitPrefix(t: string): Option<int>
  {
    var negative := |t| > 0 && t[0] == '-';
    var body := if |t| > 0 && (t[0] == '-' || t[0] == '+') then t[1..] else t;
    var digits := DigitPrefix(body);
    if digits == [] then None
    else Some(if negative then -DigitsValue(digits) else DigitsValue(digits))
  }

  /** `parseInt(s, 10)`, with `NaN` as `None`. */
  function ParseIntPrefix(s: string): Option<int>
  {
    SignedDigitPrefix(TrimStart(s))
  }

  /** `handlePenaltyUpdate`: the penalty passed on to `updateUserPenalty`, or
      `None` when no update is issued. */
  function PenaltyUpdate(penaltyValue: string): (r: Option<int>)
    ensures r.Some? ==> r.value >= 0 && ParseIntPrefix(penaltyValue) == r
    ensures r.None? ==> ParseIntPrefix(penaltyValue).None? || ParseIntPrefix(penaltyValue).value < 0
  {
    var newPenalty := ParseIntPrefix(penaltyValue);
    if newPenalty.Some? && newPenalty.value >= 0 then newPenalty else None
  }

  lemma {:induction false} DigitPrefixOfDigits(d: string, rest: string)
    requires AllDigits(d)
    requires rest != [] ==> !IsDigit(rest[0])
    ensures DigitPrefix(d + rest) == d
  {
    if d != [] {
      assert (d + rest)[1..] == d[1..] + rest;
      DigitPrefixOfDigits(d[1..], rest);
    } else {
      assert d + rest == rest;
    }
  }

  /** Text that starts with something other than white space is parsed
      from its first character. */
  lemma TrimStartKeeps(s: string)
    requires s != [] && !IsJsSpace(s[0])
    ensures TrimStart(s) == s
  {
  }

  lemma SignedDigitPrefixUnsigned(d: string, rest: string)
    requires d != [] && AllDigits(d)
    requires rest != [] ==> !IsDigit(rest[0])
    ensures SignedDigitPrefix(d + rest) == Some(DigitsValue(d))
  {
    assert (d + rest)[0] == d[0];
    DigitPrefixOfDigits(d, rest);
  }

  lemma SignedDigitPrefixNegative(d: string, rest: string)
    requires d != [] && AllDigits(d)
    requires rest != [] ==> !IsDigit(rest[0])
    ensures SignedDigitPrefix(['-'] + (d + rest)) == Some(-DigitsValue(d))
  {
    var t := ['-'] + (d + rest);
    assert |t| > 0 && t[0] == '-';
    assert t[1..] == d + rest;
    DigitPrefixOfDigits(d, rest);
    var digits := DigitPrefix(t[1..]);
    assert digits == d;
  }

  lemma ParseIntPrefixUnsigned(d: string, rest: string)
    requires d != [] && AllDigits(d)
    requires rest != [] ==> !IsDigit(rest[0])
    ensures ParseIntPrefix(d + rest) == Some(DigitsValue(d))
  {
    assert (d + rest)[0] == d[0];
    TrimStartKeeps(d + rest);
    SignedDigitPrefixUnsigned(d, rest);
  }

  lemma ParseIntPrefixNegative(d: string, rest: string)
    requires d != [] && AllDigits(d)
    requires rest != [] ==> !IsDigit(rest[0])
    ensures ParseIntPrefix(['-'] + (d + rest)) == Some(-DigitsValue(d))
  {
    TrimStartKeeps(['-'] + (d + rest));
    SignedDigitPrefixNegative(d, rest);
  }

  /** The field's initial text, the user's current penalty, and any other
      rendering of a natural number, followed by nothing or by text that does
      not start with a digit, is forwarded as that number. */
  lemma PenaltyUpdateOfNat(n: nat, rest: string)
    requires rest != [] ==> !IsDigit(rest[0])
    ensures PenaltyUpdate(NatToString(n) + rest) == Some(n)
  {
    ParseIntPrefixUnsigned(NatToString(n), rest);
    DigitsOfNat(n);
  }

  /** A negative number is never forwarded. */
  lemma PenaltyUpdateRejectsNegative(n: nat, rest: string)
    requires n > 0
    requires rest != [] ==> !IsDigit(rest[0])
    ensures PenaltyUpdate(['-'] + (NatToString(n) + rest)) == None
  {
    ParseIntPrefixNegative(NatToString(n), rest);
    DigitsOfNat(n);
  }
}

=== FILE: data_service.dfy ===
/** The key-value store under the tracker (services/dataService.ts).

    Each storage key is a field holding `None` while the key is absent and
    `Some(value)` once written; the getters return the source's default for
    an absent key. Ids and the clock reading are passed in by the caller. */
module DataService {
  import opened Types
  import opened DateUtils

  // ------------------------------------------------------------ pure helpers

  function LowerChar(c: char): char
  {
    if 'A' <= c <= 'Z' then (c as int + 32) as char else c
  }

  /** `toLowerCase()` on the ASCII letters. */
  function ToLower(s: string): (r: string)
    ensures |r| == |s|
  {
    seq(|s|, i requires 0 <= i < |s| => LowerChar(s[i]))
  }

  /** Usernames compared ignoring case. */
  predicate SameUsername(a: string, b: string)
  {
    ToLower(a) == ToLower(b)
  }

  predicate UsernameTaken(users: seq<User>, username: string)
  {
    exists i :: 0 <= i < |users| && SameUsername(users[i].username, username)
  }

  /** No two stored usernames coincide ignoring case. */
  predicate UniqueUsernames(users: seq<User>)
  {
    forall i, j :: 0 <= i < j < |users| ==> !SameUsername(users[i].username, users[j].username)
  }

  /** Appending a user whose name is not taken keeps usernames unique. */
  lemma AppendFreshUsername(users: seq<User>, u: User)
    requires UniqueUsernames(users)
    requires !UsernameTaken(users, u.username)
    ensures UniqueUsernames(users + [u])
  {
    var us := users + [u];
    forall i, j | 0 <= i < j < |us|
      ensures !SameUsername(us[i].username, us[j].username)
    {
      if j == |users| {
        assert !SameUsername(users[i].username, u.username);
      }
    }
  }

  /** `findIndex(u => u.id === id)`: the first index holding `id`. */
  function FindUserIndex(users: seq<User>, id: string): (r: Option<nat>)
    ensures r.Some? ==> r.value < |users| && users[r.value].id == id
    ensures r.Some? ==> forall j :: 0 <= j < r.value ==> users[j].id != id
    ensures r.None? <==> forall j :: 0 <= j < |users| ==> users[j].id != id
  {
    if users == [] then None
    else if users[0].id == id then Some(0)
    else match FindUserIndex(users[1..], id)
      case Some(k) => Some(k + 1)
      case None => None
  }

  /** The user list after `updateUser(u)`: the first record with `u.id` is
      replaced by `u`; without one, the list is unchanged. */
  function ReplaceById(users: seq<User>, u: User): (r: seq<User>)
    ensures |r| == |users|
    ensures FindUserIndex(users, u.id).None? ==> r == users
    ensures FindUserIndex(users, u.id).Some? ==>
      var k := FindUserIndex(users, u.id).value;
      r[k] == u && forall j :: 0 <= j < |users| && j != k ==> r[j] == users[j]
  {
    match FindUserIndex(users, u.id)
    case Some(k) => users[k := u]
    case None => users
  }

  /** `updateUser` on a record whose id first occurs at `k` writes index `k`. */
  lemma ReplaceFirstOccurrence(users: seq<User>, u: User, k: nat)
    requires k < |users| && users[k].id == u.id
    requires forall j :: 0 <= j < k ==> users[j].id != u.id
    ensures ReplaceById(users, u) == users[k := u]
  {
    var r := FindUserIndex(users, u.id);
    assert r.Some? && r.value == k;
  }

  /** A replacement that keeps the username keeps usernames unique. */
  lemma ReplaceKeepsUniqueUsernames(users: seq<User>, u: User)
    requires UniqueUsernames(users)
    requires forall k :: 0 <= k < |users| && users[k].id == u.id ==> users[k].username == u.username
    ensures UniqueUsernames(ReplaceById(users, u))
  {
  }

  /** `authenticateUser`: the first user whose name matches ignoring case and
      whose password matches exactly. */
  predicate Credentials(u: User, username: string, password: string)
  {
    SameUsername(u.username, username) && u.password == Some(password)
  }

  function Authenticate(users: seq<User>, username: string, password: string): (r: Option<User>)
    ensures r.Some? ==> exists k :: (0 <= k < |users| && users[k] == r.value
      && Credentials(users[k], username, password)
      && forall j :: 0 <= j < k ==> !Credentials(users[j], username, password))
    ensures r.None? <==> forall k :: 0 <= k < |users| ==> !Credentials(users[k], username, password)
  {
    if users == [] then None
    else if Credentials(users[0], username, password) then Some(users[0])
    else
      var r := Authenticate(users[1..], username, password);
      assert r.Some? ==> exists k :: (1 <= k < |users| && users[k] == r.value
        && Credentials(users[k], username, password)
        && forall j :: 0 <= j < k ==> !Credentials(users[j], username, password))
      by {
        if r.Some? {
          var k' :| 0 <= k' < |users[1..]| && users[1..][k'] == r.value
            && Credentials(users[1..][k'], username, password)
            && forall j :: 0 <= j < k' ==> !Credentials(users[1..][j], username, password);
          assert users[k' + 1] == r.value;
          forall j | 0 <= j < k' + 1 ensures !Credentials(users[j], username, password) {
            if j > 0 { assert users[j] == users[1..][j - 1]; }
          }
        }
      }
      r
  }

  /** The week window of `getActivitiesForWeek(date)`: from the Monday that
      starts `date`'s week, for seven days. */
  predicate InWeekOf(a: Activity, date: Timestamp)
  {
    var weekStart := GetWeekStart(date);
    var weekEnd := ShiftDays(weekStart, 7);
    weekStart <= a.date < weekEnd
  }

  function ActivitiesInWeek(acts: seq<Activity>, date: Timestamp): (r: seq<Activity>)
  {
    Filter(acts, (a: Activity) => InWeekOf(a, date))
  }

  /** `getActivitiesForWeek` keeps, in their original order, exactly the
      activities dated in `[GetWeekStart(date), GetWeekStart(date) + 7 days)`, and
      they are exactly the activities whose week id is `date`'s. */
  lemma ActivitiesInWeekSpec(acts: seq<Activity>, date: Timestamp, more: seq<Activity>)
    ensures forall a :: a in ActivitiesInWeek(acts, date) <==>
      a in acts && GetWeekStart(date) <= a.date < GetWeekStart(date) + MsPerWeek
    ensures forall a :: a in ActivitiesInWeek(acts, date) ==> GetWeekId(a.date) == GetWeekId(date)
    ensures forall a :: a in acts && GetWeekId(a.date) == GetWeekId(date) ==> a in ActivitiesInWeek(acts, date)
    ensures ActivitiesInWeek(acts + more, date) == ActivitiesInWeek(acts, date) + ActivitiesInWeek(more, date)
  {
    FilterAppend(acts, more, (a: Activity) => InWeekOf(a, date));
    FilterMembers(acts, (a: Activity) => InWeekOf(a, date));
    forall a | a in ActivitiesInWeek(acts, date) ensures GetWeekId(a.date) == GetWeekId(date) {
      SameSpanSameWeek(date, a.date);
    }
    forall a | a in acts && GetWeekId(a.date) == GetWeekId(date) ensures a in ActivitiesInWeek(acts, date) {
      WeekStartIsMondayMidnight(a.date);
      WeekStartIsMondayMidnight(date);
    }
  }

  /** `!!checks[weekId]`: the ledger records the week as swept. */
  predicate Applied(checks: map<WeekId, bool>, weekId: WeekId)
  {
    weekId in checks && checks[weekId]
  }

  /** `checks[weekId] = true`. */
  function Mark(checks: map<WeekId, bool>, weekId: WeekId): (r: map<WeekId, bool>)
    ensures Applied(r, weekId)
    ensures forall w :: w != weekId ==> Applied(r, w) == Applied(checks, w)
    ensures r.Keys == checks.Keys + {weekId}
  {
    checks[weekId := true]
  }

  /** The five seeded activity types. */
  const InitialActivityTypes: seq<ActivityType> := [
    ActivityType("1", "Course à pied", "\U{1F3C3}"),
    ActivityType("2", "Vélo", "\U{1F6B4}"),
    ActivityType("3", "Musculation", "\U{1F3CB}\U{FE0F}"),
    ActivityType("4", "Natation", "\U{1F3CA}"),
    ActivityType("5", "Yoga", "\U{1F9D8}")
  ]

  const DefaultSettings: AppSettings := AppSettings(60, 5)

  // ------------------------------------------------------------------ store

  class Store {
    var usersRecord: Option<seq<User>>
    var activitiesRecord: Option<seq<Activity>>
    var activityTypesRecord: Option<seq<ActivityType>>
    var loggedInUserRecord: Option<User>
    var penaltyChecksRecord: Option<map<WeekId, bool>>
    var settingsRecord: Option<AppSettings>
    var chatRecord: Option<seq<ChatMessage>>

    /** An empty storage: every key absent. */
    constructor ()
      ensures usersRecord.None? && activitiesRecord.None? && activityTypesRecord.None?
      ensures loggedInUserRecord.None? && penaltyChecksRecord.None?
      ensures settingsRecord.None? && chatRecord.None?
    {
      usersRecord, activitiesRecord, activityTypesRecord := None, None, None;
      loggedInUserRecord, penaltyChecksRecord := None, None;
      settingsRecord, chatRecord := None, None;
    }

    function Users(): seq<User>
      reads this`usersRecord
    {
      if usersRecord.Some? then usersRecord.value else []
    }

    function Activities(): seq<Activity>
      reads this`activitiesRecord
    {
      if activitiesRecord.Some? then activitiesRecord.value else []
    }

    function ActivityTypes(): seq<ActivityType>
      reads this`activityTypesRecord
    {
      if activityTypesRecord.Some? then activityTypesRecord.value else []
    }

    function PenaltyChecks(): map<WeekId, bool>
      reads this`penaltyChecksRecord
    {
      if penaltyChecksRecord.Some? then penaltyChecksRecord.value else map[]
    }

    function Settings(): AppSettings
      reads this`settingsRecord
    {
      if settingsRecord.Some? then settingsRecord.value else DefaultSettings
    }

    function ChatMessages(): seq<ChatMessage>
      reads this`chatRecord
    {
      if chatRecord.Some? then chatRecord.value else []
    }

    function LoggedInUser(): Option<User>
      reads this`loggedInUserRecord
    {
      loggedInUserRecord
    }

    /** `initializeData`: writes the default of every absent key and leaves
        every present key as it was. */
    method InitializeData()
      modifies this`usersRecord, this`activitiesRecord, this`activityTypesRecord
      modifies this`penaltyChecksRecord, this`settingsRecord, this`chatRecord
      ensures usersRecord == if old(usersRecord).Some? then old(usersRecord) else Some([])
      ensures activitiesRecord == if old(activitiesRecord).Some? then old(activitiesRecord) else Some([])
      ensures activityTypesRecord ==
        if old(activityTypesRecord).Some? then old(activityTypesRecord) else Some(InitialActivityTypes)
      ensures penaltyChecksRecord ==
        if old(penaltyChecksRecord).Some? then old(penaltyChecksRecord) else Some(map[])
      ensures settingsRecord == if old(settingsRecord).Some? then old(settingsRecord) else Some(DefaultSettings)
      ensures chatRecord == if old(chatRecord).Some? then old(chatRecord) else Some([])
    {
      if usersRecord.None? { usersRecord := Some([]); }
      if activitiesRecord.None? { activitiesRecord := Some([]); }
      if activityTypesRecord.None? { activityTypesRecord := Some(InitialActivityTypes); }
      if penaltyChecksRecord.None? { penaltyChecksRecord := Some(map[]); }
      if settingsRecord.None? { settingsRecord := Some(DefaultSettings); }
      if chatRecord.None? { chatRecord := Some([]); }
    }

    /** `addUser`: refuses a username already taken ignoring case; otherwise
        appends one user with no penalty. */
    method AddUser(username: string, password: string, isCoach: bool, id: string, now: Timestamp)
      returns (r: Option<User>)
      modifies this`usersRecord
      ensures old(UsernameTaken(Users(), username)) ==> r.None? && usersRecord == old(usersRecord)
      ensures !old(UsernameTaken(Users(), username)) ==>
        r == Some(User(id, username, Some(password), isCoach, 0, now))
        && Users() == old(Users()) + [r.value]
    {
      var users := Users();
      if exists i :: 0 <= i < |users| && SameUsername(users[i].username, username) {
        return None;
      }
      var newUser := User(id, username, Some(password), isCoach, 0, now);
      usersRecord := Some(users + [newUser]);
      r := Some(newUser);
    }

    /** `updateUser`: replaces the first record with the same id, if any. */
    method UpdateUser(updatedUser: User)
      modifies this`usersRecord
      ensures Users() == ReplaceById(old(Users()), updatedUser)
      ensures FindUserIndex(old(Users()), updatedUser.id).None? ==> usersRecord == old(usersRecord)
      ensures old(usersRecord).Some? ==> usersRecord.Some?
    {
      var users := Users();
      var userIndex := FindUserIndex(users, updatedUser.id);
      if userIndex.Some? {
        users := users[userIndex.value := updatedUser];
        usersRecord := Some(users);
      }
    }

    /** `addActivity`: stamps the activity with `now` and appends it. */
    method AddActivity(userId: string, activityTypeId: string, duration: int, comment: Option<string>,
                       id: string, now: Timestamp)
      returns (a: Activity)
      modifies this`activitiesRecord
      ensures a == Activity(id, userId, activityTypeId, duration, now, comment)
      ensures Activities() == old(Activities()) + [a]
    {
      a := Activity(id, userId, activityTypeId, duration, now, comment);
      activitiesRecord := Some(Activities() + [a]);
    }

    /** `getActivitiesForWeek`. */
    function ActivitiesForWeek(date: Timestamp): seq<Activity>
      reads this`activitiesRecord
    {
      ActivitiesInWeek(Activities(), date)
    }

    /** `addActivityType`: appends a type; names need not be unique. */
    method AddActivityType(name: string, icon: string, id: string) returns (t: ActivityType)
      modifies this`activityTypesRecord
      ensures t == ActivityType(id, name, icon)
      ensures ActivityTypes() == old(ActivityTypes()) + [t]
    {
      t := ActivityType(id, name, icon);
      activityTypesRecord := Some(ActivityTypes() + [t]);
    }

    method SetLoggedInUser(user: User)
      modifies this`loggedInUserRecord
      ensures LoggedInUser() == Some(user)
    {
      loggedInUserRecord := Some(user);
    }

    method ClearLoggedInUser()
      modifies this`loggedInUserRecord
      ensures LoggedInUser() == None
    {
      loggedInUserRecord := None;
    }

    function HasPenaltyBeenApplied(weekId: WeekId): bool
      reads this`penaltyChecksRecord
    {
      Applied(PenaltyChecks(), weekId)
    }

    method MarkPenaltyAsApplied(weekId: WeekId)
      modifies this`penaltyChecksRecord
      ensures penaltyChecksRecord.Some?
      ensures PenaltyChecks() == Mark(old(PenaltyChecks()), weekId)
    {
      penaltyChecksRecord := Some(Mark(PenaltyChecks(), weekId));
    }

    method UpdateSettings(newSettings: AppSettings)
      modifies this`settingsRecord
      ensures settingsRecord == Some(newSettings)
      ensures Settings() == newSettings
    {
      settingsRecord := Some(newSettings);
    }

    /** `addChatMessage`: stamps the message with `now` and appends it. */
    method AddChatMessage(userId: string, username: string, message: string, id: string, now: Timestamp)
      returns (m: ChatMessage)
      modifies this`chatRecord
      ensures m == ChatMessage(id, userId, username, message, now)
      ensures ChatMessages() == old(ChatMessages()) + [m]
    {
      m := ChatMessage(id, userId, username, message, now);
      chatRecord := Some(ChatMessages() + [m]);
    }
  }
}

=== FILE: date_utils.dfy ===
/** Monday-based week arithmetic, duration formatting and the Sunday-evening
    reminder window (utils/dateUtils.ts).

    A `Date` is a local wall-clock timestamp in milliseconds with a fixed
    offset from UTC, so a day always lasts `MsPerDay`. Day 0 (1970-01-01)
    was a Thursday. */
module DateUtils {
  import opened Types

  const MsPerSecond: int := 1000
  const MsPerMinute: int := 60 * MsPerSecond
  const MsPerHour: int := 60 * MsPerMinute
  const MsPerDay: int := 24 * MsPerHour
  const MsPerWeek: int := 7 * MsPerDay

  /** Number of the calendar day holding `t` (floor division). */
  function DayNumber(t: Timestamp): int
  {
    t / MsPerDay
  }

  /** `Date.getDay()`: 0 is Sunday, 1 Monday, ..., 6 Saturday. */
  function GetDay(t: Timestamp): (d: int)
    ensures 0 <= d < 7
  {
    (DayNumber(t) + 4) % 7
  }

  /** `Date.getHours()`. */
  function GetHours(t: Timestamp): (h: int)
    ensures 0 <= h < 24
  {
    (t % MsPerDay) / MsPerHour
  }

  /** `d.setDate(d.getDate() + n)`: the same time of day, `n` days later. */
  function ShiftDays(t: Timestamp, n: int): Timestamp
  {
    t + n * MsPerDay
  }

  /** `d.setHours(h, m, s, ms)`: the same day, at the given time of day. */
  function SetHours(t: Timestamp, h: int, m: int, s: int, ms: int): Timestamp
  {
    DayNumber(t) * MsPerDay + h * MsPerHour + m * MsPerMinute + s * MsPerSecond + ms
  }

  /** Position of `t`'s day in a Monday-first week: Monday is 0, Sunday is 6. */
  function DayCorrected(t: Timestamp): (c: int)
    ensures 0 <= c <= 6
    ensures (c + 1) % 7 == GetDay(t)
  {
    var day := GetDay(t);
    if day == 0 then 6 else day - 1
  }

  function GetWeekStart(t: Timestamp): Timestamp
  {
    var day := DayCorrected(t);
    SetHours(ShiftDays(t, -day), 0, 0, 0, 0)
  }

  function GetWeekEnd(t: Timestamp): Timestamp
  {
    var day := DayCorrected(t);
    SetHours(ShiftDays(t, 6 - day), 23, 59, 59, 999)
  }

  /** The week's identifier: the day number of its Monday. */
  function GetWeekId(t: Timestamp): WeekId
  {
    DayNumber(GetWeekStart(t))
  }

  /** A day number written as a timestamp falls on that day. */
  lemma DayOfMidnight(n: int, offset: int)
    requires 0 <= offset < MsPerDay
    ensures DayNumber(n * MsPerDay + offset) == n
    ensures (n * MsPerDay + offset) % MsPerDay == offset
  {
  }

  /** `GetWeekStart(t)` is the Monday at 00:00:00.000 of the Monday-to-Sunday
      span holding `t`. */
  lemma WeekStartIsMondayMidnight(t: Timestamp)
    ensures GetWeekStart(t) % MsPerDay == 0
    ensures GetDay(GetWeekStart(t)) == 1
    ensures GetWeekStart(t) <= t < GetWeekStart(t) + MsPerWeek
    ensures GetWeekId(t) == DayNumber(t) - DayCorrected(t)
    ensures GetWeekStart(t) == GetWeekId(t) * MsPerDay
  {
    var c := DayCorrected(t);
    var n := DayNumber(t) - c;
    var tod := t % MsPerDay;
    assert ShiftDays(t, -c) == n * MsPerDay + tod;
    DayOfMidnight(n, tod);
    DayOfMidnight(n, 0);
    assert (n + 4) % 7 == 1 by {
      assert (DayNumber(t) + 4) % 7 == (c + 1) % 7;
    }
  }

  /** `GetWeekEnd(t)` is the Sunday at 23:59:59.999 of the same span, exactly
      one millisecond short of seven days after its Monday. */
  lemma WeekEndIsSundayLastMillisecond(t: Timestamp)
    ensures GetDay(GetWeekEnd(t)) == 0
    ensures GetWeekEnd(t) % MsPerDay == MsPerDay - 1
    ensures GetWeekStart(t) <= t <= GetWeekEnd(t)
    ensures GetWeekEnd(t) - GetWeekStart(t) == MsPerWeek - 1
  {
    WeekStartIsMondayMidnight(t);
    var n := GetWeekId(t);
    SundayOfWeek(t);
    DayOfMidnight(n + 6, MsPerDay - 1);
    var q := (n + 4) / 7;
    assert n + 6 + 4 == 7 * (q + 1);
  }

  /** The Sunday reached from `t` by `ShiftDays` lies six days after its Monday. */
  lemma SundayOfWeek(t: Timestamp)
    ensures DayNumber(ShiftDays(t, 6 - DayCorrected(t))) == GetWeekId(t) + 6
  {
    WeekStartIsMondayMidnight(t);
    var c, n, tod := DayCorrected(t), GetWeekId(t), t % MsPerDay;
    assert ShiftDays(t, 6 - c) == (n + 6) * MsPerDay + tod by {
      assert t == (n + c) * MsPerDay + tod;
    }
    DayOfMidnight(n + 6, tod);
  }

  /** Every instant of the span `[GetWeekStart(t), GetWeekStart(t) + 7 days)` has the
      same week start, hence the same week id. */
  lemma {:induction false} SameSpanSameWeek(t: Timestamp, u: Timestamp)
    requires GetWeekStart(t) <= u < GetWeekStart(t) + MsPerWeek
    ensures GetWeekStart(u) == GetWeekStart(t)
    ensures GetWeekId(u) == GetWeekId(t)
  {
    WeekStartIsMondayMidnight(t);
    WeekStartIsMondayMidnight(u);
    var nt, nu := DayNumber(GetWeekStart(t)), DayNumber(GetWeekStart(u));
    DayOfMidnight(nt, 0);
    DayOfMidnight(nu, 0);
    assert GetWeekStart(t) == nt * MsPerDay;
    assert GetWeekStart(u) == nu * MsPerDay;
    assert (nt + 4) % 7 == 1 && (nu + 4) % 7 == 1;
    assert -7 < nt - nu < 7;
    assert (nt - nu) % 7 == 0;
  }

  /** `getWeekStart` is idempotent. */
  lemma WeekStartIdempotent(t: Timestamp)
    ensures GetWeekStart(GetWeekStart(t)) == GetWeekStart(t)
  {
    WeekStartIsMondayMidnight(t);
    SameSpanSameWeek(t, GetWeekStart(t));
  }

  /** On a Monday, the instant one day earlier lies in the Monday-to-Sunday
      week that has just ended: its start is exactly seven days before the
      current week's start. */
  lemma MondayYesterdayIsPreviousWeek(now: Timestamp)
    requires GetDay(now) == 1
    ensures GetWeekStart(ShiftDays(now, -1)) == GetWeekStart(now) - MsPerWeek
    ensures GetWeekId(ShiftDays(now, -1)) == GetWeekId(now) - 7
  {
    var y := ShiftDays(now, -1);
    var n := DayNumber(now);
    assert DayNumber(y) == n - 1;
    assert GetDay(y) == 0;
    WeekStartIsMondayMidnight(now);
    WeekStartIsMondayMidnight(y);
  }

  // ---------------------------------------------------------------- strings

  function DigitChar(d: int): char
    requires 0 <= d < 10
  {
    "0123456789"[d]
  }

  predicate IsDigit(c: char)
  {
    '0' <= c <= '9'
  }

  /** Every character is a decimal digit. */
  predicate AllDigits(s: string)
  {
    forall i :: 0 <= i < |s| ==> IsDigit(s[i])
  }

  function DigitValue(c: char): int
    requires IsDigit(c)
  {
    c as int - '0' as int
  }

  /** Decimal rendering of a natural number, without leading zeros. */
  function NatToString(n: nat): (s: string)
    ensures |s| > 0
    ensures AllDigits(s)
  {
    if n < 10 then [DigitChar(n)] else NatToString(n / 10) + [DigitChar(n % 10)]
  }

  /** Decimal rendering of an integer, as JavaScript's template literals do. */
  function IntToString(i: int): string
  {
    if i < 0 then "-" + NatToString(-i) else NatToString(i)
  }

  /** Value of a string of decimal digits. */
  function DigitsValue(s: string): int
    requires AllDigits(s)
  {
    if s == [] then 0 else DigitsValue(s[..|s| - 1]) * 10 + DigitValue(s[|s| - 1])
  }

  lemma {:induction false} DigitsOfNat(n: nat)
    ensures DigitsValue(NatToString(n)) == n
  {
    if n >= 10 {
      var s := NatToString(n);
      assert s[..|s| - 1] == NatToString(n / 10);
      DigitsOfNat(n / 10);
    }
  }

  /** `formatMinutes`: under an hour as "N min", otherwise "Hh" or "Hh Mm". */
  function FormatMinutes(minutes: int): string
  {
    if minutes < 60 then IntToString(minutes) + " min"
    else
      var hours := minutes / 60;
      var remainingMinutes := minutes % 60;
      if remainingMinutes == 0 then NatToString(hours) + "h"
      else NatToString(hours) + "h " + NatToString(remainingMinutes) + "m"
  }

  /** Reads back a rendered integer; `None` when `s` is not one. */
  function ReadInt(s: string): Option<int>
  {
    if |s| > 0 && s[0] == '-' then
      var digits := s[1..];
      if |digits| > 0 && AllDigits(digits)
      then Some(-DigitsValue(digits)) else None
    else if |s| > 0 && AllDigits(s)
    then Some(DigitsValue(s))
    else None
  }

  /** The characters of `s` before the first `c` (all of `s` if none). */
  function Before(s: string, c: char): (r: string)
    ensures |r| <= |s| && r == s[..|r|]
  {
    if s == [] || s[0] == c then [] else [s[0]] + Before(s[1..], c)
  }

  lemma {:induction false} BeforeDigits(d: string, c: char, rest: string)
    requires AllDigits(d)
    requires !IsDigit(c)
    ensures Before(d + [c] + rest, c) == d
  {
    if d != [] {
      assert (d + [c] + rest)[1..] == d[1..] + [c] + rest;
      BeforeDigits(d[1..], c, rest);
    }
  }

  /** Reads back a duration rendered by `FormatMinutes`. */
  function ParseMinutes(s: string): Option<int>
  {
    if |s| >= 4 && s[|s| - 4..] == " min" then ReadInt(s[..|s| - 4])
    else if |s| >= 2 && s[|s| - 1] == 'h' then
      match ReadInt(s[..|s| - 1])
      case Some(h) => Some(60 * h)
      case None => None
    else if |s| >= 2 && s[|s| - 1] == 'm' then
      var hoursText := Before(s, 'h');
      if |hoursText| + 2 <= |s| - 1 then
        var minutesText := s[|hoursText| + 2 .. |s| - 1];
        match (ReadInt(hoursText), ReadInt(minutesText))
        case (Some(h), Some(m)) => Some(60 * h + m)
        case _ => None
      else None
    else None
  }

  lemma ParseDigits(d: string)
    requires |d| > 0 && AllDigits(d)
    ensures ReadInt(d) == Some(DigitsValue(d))
  {
    assert d[0] != '-';
  }

  lemma {:induction false} ReadIntOfIntToString(i: int)
    ensures ReadInt(IntToString(i)) == Some(i)
  {
    if i < 0 {
      var d := NatToString(-i);
      assert ("-" + d)[1..] == d;
      DigitsOfNat(-i);
    } else {
      ParseDigits(NatToString(i));
      DigitsOfNat(i);
    }
  }

  lemma {:induction false} ParseShortForm(minutes: int)
    requires minutes < 60
    ensures ParseMinutes(FormatMinutes(minutes)) == Some(minutes)
  {
    var s := FormatMinutes(minutes);
    var body := IntToString(minutes);
    assert s == body + " min";
    assert s[..|s| - 4] == body && s[|s| - 4..] == " min";
    ReadIntOfIntToString(minutes);
  }

  lemma {:induction false} ParseWholeHours(hours: nat)
    requires hours >= 1
    ensures ParseMinutes(NatToString(hours) + "h") == Some(60 * hours)
  {
    var h := NatToString(hours);
    var s := h + "h";
    assert s[..|s| - 1] == h && s[|s| - 1] == 'h';
    assert !(|s| >= 4 && s[|s| - 4..] == " min") by {
      if |s| >= 4 { assert s[|s| - 4..][3] == 'h'; }
    }
    ReadIntOfIntToString(hours);
    assert IntToString(hours) == h;
  }

  lemma {:induction false} ParseHoursMinutesText(h: string, m: string)
    requires |h| > 0 && AllDigits(h) && |m| > 0 && AllDigits(m)
    ensures ParseMinutes(h + "h " + m + "m") == Some(60 * DigitsValue(h) + DigitsValue(m))
  {
    var s := h + "h " + m + "m";
    assert s == h + ['h'] + (" " + m + "m");
    BeforeDigits(h, 'h', " " + m + "m");
    assert s[|h| + 2 .. |s| - 1] == m;
    assert s[|s| - 4..][3] == 'm';
    ParseDigits(h);
    ParseDigits(m);
  }

  lemma {:induction false} ParseHoursAndMinutes(hours: nat, rem: nat)
    requires 1 <= hours && 0 < rem < 60
    ensures ParseMinutes(NatToString(hours) + "h " + NatToString(rem) + "m") == Some(60 * hours + rem)
  {
    var h, m := NatToString(hours), NatToString(rem);
    DigitsOfNat(hours);
    DigitsOfNat(rem);
    ParseHoursMinutesText(h, m);
    assert 60 * DigitsValue(h) + DigitsValue(m) == 60 * hours + rem;
  }

  /** `FormatMinutes` loses nothing: the minute count can be read back from
      every string it renders. */
  lemma {:induction false} FormatMinutesRoundTrip(minutes: int)
    ensures ParseMinutes(FormatMinutes(minutes)) == Some(minutes)
  {
    if minutes < 60 {
      ParseShortForm(minutes);
    } else {
      var hours, rem := minutes / 60, minutes % 60;
      assert minutes == 60 * hours + rem && hours >= 1;
      if rem == 0 {
        assert FormatMinutes(minutes) == NatToString(hours) + "h";
        ParseWholeHours(hours);
      } else {
        assert FormatMinutes(minutes) == NatToString(hours) + "h " + NatToString(rem) + "m";
        ParseHoursAndMinutes(hours, rem);
      }
    }
  }

  /** Sample renderings of 0, 45, 60 and 90 minutes. */
  lemma FormatMinutesExamples()
    ensures FormatMinutes(0) == "0 min"
    ensures FormatMinutes(45) == "45 min"
    ensures FormatMinutes(60) == "1h"
    ensures FormatMinutes(90) == "1h 30m"
  {
    assert NatToString(45) == NatToString(4) + [DigitChar(5)];
    assert NatToString(30) == NatToString(3) + [DigitChar(0)];
  }

  /** `isReminderTime`, with the clock reading passed in. */
  function IsReminderTime(now: Timestamp): (r: bool)
  {
    GetDay(now) == 0 && GetHours(now) >= 18
  }

  /** The reminder window is Sunday from 18:00:00.000 to midnight: exactly the
      last six hours before `GetWeekEnd` ends the week. */
  lemma ReminderWindowIsLastSixHours(now: Timestamp)
    ensures IsReminderTime(now) <==> GetWeekEnd(now) - 6 * MsPerHour < now
  {
    var n, c, tod := DayNumber(now), DayCorrected(now), now % MsPerDay;
    assert now == n * MsPerDay + tod;
    var end := GetWeekEnd(now);
    assert end == (n - c + 7) * MsPerDay - 1 by {
      WeekStartIsMondayMidnight(now);
      WeekEndIsSundayLastMillisecond(now);
    }
    if c == 6 {
      assert GetDay(now) == 0;
      assert end - 6 * MsPerHour == n * MsPerDay + 18 * MsPerHour - 1;
      assert GetHours(now) >= 18 <==> tod >= 18 * MsPerHour;
    } else {
      assert GetDay(now) != 0;
      assert end - 6 * MsPerHour >= (n + 1) * MsPerDay;
    }
  }

}

=== FILE: history.dfy ===
/** The history screen's week-by-week record of the logged-in user
    (screens/HistoryScreen.tsx): the counted activities are totalled per
    week into a dictionary, one entry is made per week, and the entries are
    sorted newest first. */
module History {
  import opened Types
  import opened DateUtils

  /** One line of the history (the display date `startDate` is not kept). */
  datatype WeeklyHistory = WeeklyHistory(weekId: WeekId, totalMinutes: int, goalMet: bool)

  // ----------------------------------------------------- what gets counted

  /** The user's own activities, forfeits excluded. */
  predicate Counted(a: Activity, userId: string)
  {
    a.userId == userId && a.activityTypeId != GaveUp
  }

  function CountedActivities(activities: seq<Activity>, userId: string): seq<Activity>
  {
    Filter(activities, (a: Activity) => Counted(a, userId))
  }

  function InWeek(acts: seq<Activity>, w: WeekId): seq<Activity>
  {
    Filter(acts, (a: Activity) => GetWeekId(a.date) == w)
  }

  /** Reference definition: the minutes of `acts` dated in week `w`. */
  function WeekTotal(acts: seq<Activity>, w: WeekId): int
  {
    SumDurations(InWeek(acts, w))
  }

  lemma WeekTotalSnoc(acts: seq<Activity>, a: Activity, w: WeekId)
    ensures WeekTotal(acts + [a], w)
      == WeekTotal(acts, w) + (if GetWeekId(a.date) == w then a.duration else 0)
  {
    var p := (x: Activity) => GetWeekId(x.date) == w;
    var s := acts + [a];
    assert s[..|s| - 1] == acts && s[|s| - 1] == a;
    assert Filter(s, p) == Filter(acts, p) + (if p(a) then [a] else []);
    SumDurationsAppend(Filter(acts, p), if p(a) then [a] else []);
    assert [a][..0] == [];
  }

  // ------------------------------------------------------ the weeks dictionary

  /** No week appears twice. */
  predicate Distinct(order: seq<WeekId>)
  {
    forall i, j :: 0 <= i < j < |order| ==> order[i] != order[j]
  }

  /** Every listed week has a total. */
  predicate Listed(order: seq<WeekId>, weeks: map<WeekId, int>)
  {
    forall i :: 0 <= i < |order| ==> order[i] in weeks
  }

  /** The totals of the weeks listed in `order`, added up. */
  function SumOver(order: seq<WeekId>, weeks: map<WeekId, int>): int
    requires Listed(order, weeks)
  {
    if order == [] then 0
    else SumOver(order[..|order| - 1], weeks) + weeks[order[|order| - 1]]
  }

  /** Changing a week that is not listed leaves the sum alone. */
  lemma {:induction false} SumOverFrame(order: seq<WeekId>, weeks: map<WeekId, int>, w: WeekId, d: int)
    requires Listed(order, weeks)
    requires w !in order
    ensures SumOver(order, weeks[w := d]) == SumOver(order, weeks)
  {
    if order != [] {
      var init := order[..|order| - 1];
      assert Listed(init, weeks);
      SumOverFrame(init, weeks, w, d);
    }
  }

  /** Setting a week listed once to `v` moves the sum by `v` minus its old total. */
  lemma {:induction false} SumOverSet(order: seq<WeekId>, weeks: map<WeekId, int>, w: WeekId, v: int)
    requires Listed(order, weeks)
    requires Distinct(order) && w in order
    ensures SumOver(order, weeks[w := v]) == SumOver(order, weeks) - weeks[w] + v
  {
    var n := |order| - 1;
    var init := order[..n];
    assert Listed(init, weeks);
    if order[n] == w {
      assert w !in init;
      SumOverFrame(init, weeks, w, v);
    } else {
      assert w in init by {
        var k :| 0 <= k < |order| && order[k] == w;
        assert k < n && init[k] == w;
      }
      SumOverSet(init, weeks, w, v);
    }
  }

  lemma SumOverAppend(order: seq<WeekId>, weeks: map<WeekId, int>, w: WeekId)
    requires Listed(order, weeks) && w in weeks
    ensures Listed(order + [w], weeks)
    ensures SumOver(order + [w], weeks) == SumOver(order, weeks) + weeks[w]
  {
    assert (order + [w])[..|order|] == order;
  }

  /** A key written twice keeps the second value. */
  lemma Overwrite(m: map<WeekId, int>, k: WeekId, v1: int, v2: int)
    ensures m[k := v1][k := v2] == m[k := v2]
  {
  }

  /** Some activity of `acts` falls in week `w`. */
  predicate HasWeek(acts: seq<Activity>, w: WeekId)
  {
    exists k :: 0 <= k < |acts| && GetWeekId(acts[k].date) == w
  }

  /** The dictionary's keys in creation order, and its values. */
  datatype Tally = Tally(order: seq<WeekId>, weeks: map<WeekId, int>)

  /** `t` lists, once each, exactly the weeks in which `acts` has an activity. */
  ghost predicate Keyed(acts: seq<Activity>, t: Tally)
  {
    && Distinct(t.order)
    && (forall w :: w in t.weeks <==> w in t.order)
    && (forall w :: w in t.order <==> HasWeek(acts, w))
    && Listed(t.order, t.weeks)
  }

  /** `t` holds the running totals of `acts`: each week with an activity is
      listed once, with that week's minutes, and the listed totals add up to
      all the minutes. */
  ghost predicate Tallied(acts: seq<Activity>, t: Tally)
  {
    && Keyed(acts, t)
    && (forall w :: WeekTotal(acts, w) == if w in t.weeks then t.weeks[w] else 0)
    && SumOver(t.order, t.weeks) == SumDurations(acts)
  }

  /** One activity more: its week gets a key, after the others, if it had
      none, and the week's total grows by the activity's duration. */
  function Record(t: Tally, a: Activity): Tally
  {
    var w := GetWeekId(a.date);
    if w in t.weeks then Tally(t.order, t.weeks[w := t.weeks[w] + a.duration])
    else Tally(t.order + [w], t.weeks[w := a.duration])
  }

  /** The dictionary after recording `acts` one by one. */
  function TallyOf(acts: seq<Activity>): Tally
  {
    if acts == [] then Tally([], map[])
    else Record(TallyOf(acts[..|acts| - 1]), acts[|acts| - 1])
  }

  lemma StepKeyed(acts: seq<Activity>, a: Activity, t: Tally)
    requires Keyed(acts, t)
    ensures Keyed(acts + [a], Record(t, a))
  {
    var w, t', acts' := GetWeekId(a.date), Record(t, a), acts + [a];
    forall x ensures x in t'.order <==> HasWeek(acts', x)
    {
      if x != w && HasWeek(acts', x) {
        var k :| 0 <= k < |acts'| && GetWeekId(acts'[k].date) == x;
        assert k < |acts| && acts[k] == acts'[k];
      }
      if HasWeek(acts, x) {
        var k :| 0 <= k < |acts| && GetWeekId(acts[k].date) == x;
        assert acts'[k] == acts[k];
      }
      assert acts'[|acts|] == a;
    }
  }

  lemma StepTotals(acts: seq<Activity>, a: Activity, t: Tally)
    requires forall w :: WeekTotal(acts, w) == if w in t.weeks then t.weeks[w] else 0
    ensures forall w :: (WeekTotal(acts + [a], w)
      == if w in Record(t, a).weeks then Record(t, a).weeks[w] else 0)
  {
    var t' := Record(t, a);
    forall x ensures WeekTotal(acts + [a], x) == if x in t'.weeks then t'.weeks[x] else 0
    {
      WeekTotalSnoc(acts, a, x);
    }
  }

  lemma StepSum(acts: seq<Activity>, a: Activity, t: Tally)
    requires Distinct(t.order) && Listed(t.order, t.weeks)
    requires forall w :: w in t.weeks <==> w in t.order
    requires SumOver(t.order, t.weeks) == SumDurations(acts)
    requires Listed(Record(t, a).order, Record(t, a).weeks)
    ensures SumOver(Record(t, a).order, Record(t, a).weeks) == SumDurations(acts + [a])
  {
    var w := GetWeekId(a.date);
    var order, weeks := t.order, t.weeks;
    if w in weeks {
      SumOverSet(order, weeks, w, weeks[w] + a.duration);
    } else {
      SumOverFrame(order, weeks, w, a.duration);
      SumOverAppend(order, weeks[w := a.duration], w);
    }
    SumDurationsAppend(acts, [a]);
    assert SumDurations([a]) == a.duration by { assert [a][..0] == []; }
  }

  lemma TallyStep(acts: seq<Activity>, a: Activity, t: Tally)
    requires Tallied(acts, t)
    ensures Tallied(acts + [a], Record(t, a))
  {
    StepKeyed(acts, a, t);
    StepTotals(acts, a, t);
    StepSum(acts, a, t);
  }

  /** The recorded dictionary holds the running totals. */
  lemma {:induction false} TallyOfTallied(acts: seq<Activity>)
    ensures Tallied(acts, TallyOf(acts))
  {
    if acts == [] {
      assert forall w :: !HasWeek(acts, w);
    } else {
      var init, last := acts[..|acts| - 1], acts[|acts| - 1];
      assert init + [last] == acts;
      TallyOfTallied(init);
      TallyStep(init, last, TallyOf(init));
    }
  }

  /** The `userActivities.forEach` loop: `weeks[weekId]` is set to 0 when it
      is missing (or zero) and then grows by the activity's duration. `order`
      is the order in which the keys were created, which is the order
      `Object.entries` lists them in. */
  method AccumulateWeeks(acts: seq<Activity>) returns (order: seq<WeekId>, weeks: map<WeekId, int>)
    ensures Tally(order, weeks) == TallyOf(acts)
    ensures Tallied(acts, Tally(order, weeks))
  {
    order, weeks := [], map[];
    var i := 0;
    while i < |acts|
      invariant 0 <= i <= |acts|
      invariant Tally(order, weeks) == TallyOf(acts[..i])
    {
      var a := acts[i];
      var w := GetWeekId(a.date);
      assert acts[..i + 1][..i] == acts[..i];
      if w !in weeks || weeks[w] == 0 {
        if w !in weeks {
          order := order + [w];
        }
        Overwrite(weeks, w, 0, a.duration);
        weeks := weeks[w := 0];
      }
      weeks := weeks[w := weeks[w] + a.duration];
      i := i + 1;
    }
    assert acts[..i] == acts;
    TallyOfTallied(acts);
  }

  // ----------------------------------------------------------- the entries

  /** `Object.entries(weeks).map(...)`: one entry per week, in key order. */
  function Entries(order: seq<WeekId>, weeks: map<WeekId, int>, goal: int): seq<WeeklyHistory>
    requires Listed(order, weeks)
  {
    seq(|order|, i requires 0 <= i < |order| => WeeklyHistory(order[i], weeks[order[i]], weeks[order[i]] >= goal))
  }

  /** Total minutes over a list of entries. */
  function SumTotals(h: seq<WeeklyHistory>): int
  {
    if h == [] then 0 else h[0].totalMinutes + SumTotals(h[1..])
  }

  lemma {:induction false} SumTotalsSnoc(h: seq<WeeklyHistory>, e: WeeklyHistory)
    ensures SumTotals(h + [e]) == SumTotals(h) + e.totalMinutes
  {
    if h != [] {
      assert (h + [e])[1..] == h[1..] + [e];
      SumTotalsSnoc(h[1..], e);
    } else {
      assert ([e])[1..] == [];
    }
  }

  lemma {:induction false} EntriesSum(order: seq<WeekId>, weeks: map<WeekId, int>, goal: int)
    requires Listed(order, weeks)
    ensures SumTotals(Entries(order, weeks, goal)) == SumOver(order, weeks)
  {
    if order != [] {
      var n := |order| - 1;
      var init := order[..n];
      assert Listed(init, weeks);
      var e := Entries(order, weeks, goal);
      assert e == Entries(init, weeks, goal) + [e[n]];
      EntriesSum(init, weeks, goal);
      SumTotalsSnoc(Entries(init, weeks, goal), e[n]);
    }
  }

  // ------------------------------------------------------------- the sort

  /** Newest week first: `new Date(b.weekId) - new Date(a.weekId)`. */
  predicate NewestFirst(h: seq<WeeklyHistory>)
  {
    forall i, j :: 0 <= i < j < |h| ==> h[i].weekId > h[j].weekId
  }

  /** No two entries share a week. */
  predicate DistinctWeeks(h: seq<WeeklyHistory>)
  {
    forall i, j :: 0 <= i < j < |h| ==> h[i].weekId != h[j].weekId
  }

  /** Place `e` before the first entry that is not newer than it, so that
      entries of the same week keep their order as in a stable sort. */
  function Insert(e: WeeklyHistory, h: seq<WeeklyHistory>): seq<WeeklyHistory>
  {
    if h == [] || e.weekId >= h[0].weekId then [e] + h
    else [h[0]] + Insert(e, h[1..])
  }

  /** The comparator sort, as a stable insertion sort. */
  function SortNewestFirst(h: seq<WeeklyHistory>): seq<WeeklyHistory>
  {
    if h == [] then [] else Insert(h[0], SortNewestFirst(h[1..]))
  }

  lemma {:induction false} InsertMembers(e: WeeklyHistory, h: seq<WeeklyHistory>)
    ensures |Insert(e, h)| == |h| + 1
    ensures forall x :: x in Insert(e, h) <==> x == e || x in h
  {
    if h != [] && e.weekId < h[0].weekId {
      InsertMembers(e, h[1..]);
      assert h == [h[0]] + h[1..];
    }
  }

  lemma {:induction false} InsertTotal(e: WeeklyHistory, h: seq<WeeklyHistory>)
    ensures SumTotals(Insert(e, h)) == e.totalMinutes + SumTotals(h)
  {
    if h == [] || e.weekId >= h[0].weekId {
      assert ([e] + h)[1..] == h;
    } else {
      InsertTotal(e, h[1..]);
      assert ([h[0]] + Insert(e, h[1..]))[1..] == Insert(e, h[1..]);
    }
  }

  /** Every entry of `h` is older than week `w`. */
  predicate OlderThan(h: seq<WeeklyHistory>, w: WeekId)
  {
    forall x :: x in h ==> x.weekId < w
  }

  lemma {:induction false} InsertNewestFirst(e: WeeklyHistory, h: seq<WeeklyHistory>)
    requires NewestFirst(h)
    requires forall x :: x in h ==> x.weekId != e.weekId
    ensures NewestFirst(Insert(e, h))
  {
    if h != [] && e.weekId < h[0].weekId {
      var rest := h[1..];
      InsertNewestFirst(e, rest);
      InsertMembers(e, rest);
      assert OlderThan(rest, h[0].weekId) by {
        forall x | x in rest ensures x.weekId < h[0].weekId
        {
          var k :| 0 <= k < |rest| && rest[k] == x;
          assert h[k + 1] == x;
        }
      }
      var r := Insert(e, h);
      assert r == [h[0]] + Insert(e, rest);
      assert OlderThan(Insert(e, rest), h[0].weekId);
      forall i, j | 0 <= i < j < |r| ensures r[i].weekId > r[j].weekId
      {
        assert r[j] in Insert(e, rest);
      }
    }
  }

  /** Sorting entries of distinct weeks gives the same entries, newest first,
      with the same total. */
  lemma {:induction false} SortSpec(h: seq<WeeklyHistory>)
    requires DistinctWeeks(h)
    ensures |SortNewestFirst(h)| == |h|
    ensures forall x :: x in SortNewestFirst(h) <==> x in h
    ensures NewestFirst(SortNewestFirst(h))
    ensures SumTotals(SortNewestFirst(h)) == SumTotals(h)
  {
    if h != [] {
      var rest := h[1..];
      SortSpec(rest);
      forall x | x in SortNewestFirst(rest) ensures x.weekId != h[0].weekId
      {
        var k :| 0 <= k < |rest| && rest[k] == x;
        assert h[k + 1] == x;
      }
      InsertMembers(h[0], SortNewestFirst(rest));
      InsertTotal(h[0], SortNewestFirst(rest));
      InsertNewestFirst(h[0], SortNewestFirst(rest));
      forall x ensures x in h <==> x == h[0] || x in rest
      {
        assert h == [h[0]] + rest;
      }
    }
  }

  // --------------------------------------------------------- the history

  /** Some entry of `h` is about week `w`. */
  predicate HasEntry(h: seq<WeeklyHistory>, w: WeekId)
  {
    exists i :: 0 <= i < |h| && h[i].weekId == w
  }

  /** The user has a counted activity dated in week `w`. */
  predicate ActiveIn(activities: seq<Activity>, userId: string, w: WeekId)
  {
    exists a :: a in activities && Counted(a, userId) && GetWeekId(a.date) == w
  }

  lemma ActiveInCounted(activities: seq<Activity>, userId: string, w: WeekId)
    ensures ActiveIn(activities, userId, w) <==> HasWeek(CountedActivities(activities, userId), w)
  {
    var counted := CountedActivities(activities, userId);
    FilterMembers(activities, (a: Activity) => Counted(a, userId));
    if ActiveIn(activities, userId, w) {
      var a :| a in activities && Counted(a, userId) && GetWeekId(a.date) == w;
      assert a in counted;
      var k :| 0 <= k < |counted| && counted[k] == a;
    }
    if HasWeek(counted, w) {
      var k :| 0 <= k < |counted| && GetWeekId(counted[k].date) == w;
      assert counted[k] in counted;
    }
  }

  /** The sorted entries of a tally have one entry per week with an activity. */
  lemma EntryWeeks(acts: seq<Activity>, t: Tally, goal: int, w: WeekId)
    requires Keyed(acts, t)
    requires forall x :: x in SortNewestFirst(Entries(t.order, t.weeks, goal)) <==> x in Entries(t.order, t.weeks, goal)
    ensures HasEntry(SortNewestFirst(Entries(t.order, t.weeks, goal)), w) <==> HasWeek(acts, w)
  {
    var entries := Entries(t.order, t.weeks, goal);
    var h := SortNewestFirst(entries);
    if HasEntry(h, w) {
      var j :| 0 <= j < |h| && h[j].weekId == w;
      assert h[j] in entries;
      var i :| 0 <= i < |entries| && entries[i] == h[j];
      assert t.order[i] == w;
    }
    if HasWeek(acts, w) {
      assert w in t.order;
      var i :| 0 <= i < |t.order| && t.order[i] == w;
      assert entries[i] in h;
      var j :| 0 <= j < |h| && h[j] == entries[i];
    }
  }

  /** The sorted entries of a tally: newest first, one per week with an
      activity, each with that week's total and whether it reaches the goal,
      and all of the minutes between them. */
  lemma EntriesOfTally(acts: seq<Activity>, t: Tally, goal: int)
    requires Tallied(acts, t)
    ensures var h := SortNewestFirst(Entries(t.order, t.weeks, goal));
      && NewestFirst(h)
      && (forall w :: HasEntry(h, w) <==> HasWeek(acts, w))
      && (forall e :: e in h ==> e.totalMinutes == WeekTotal(acts, e.weekId) && (e.goalMet <==> e.totalMinutes >= goal))
      && SumTotals(h) == SumDurations(acts)
  {
    var entries := Entries(t.order, t.weeks, goal);
    var h := SortNewestFirst(entries);
    assert DistinctWeeks(entries);
    SortSpec(entries);
    EntriesSum(t.order, t.weeks, goal);
    forall w ensures HasEntry(h, w) <==> HasWeek(acts, w)
    {
      EntryWeeks(acts, t, goal, w);
    }
    forall e | e in h
      ensures e.totalMinutes == WeekTotal(acts, e.weekId) && (e.goalMet <==> e.totalMinutes >= goal)
    {
      var i :| 0 <= i < |entries| && entries[i] == e;
    }
  }

  /** The `history` memo: nothing until a user is logged in and the settings
      are loaded; then one entry per week in which the user has a counted
      activity, newest first, carrying that week's minutes and whether they
      reach the goal; together the entries hold every counted minute. */
  method ComputeHistory(currentUser: Option<User>, settings: Option<AppSettings>,
                        activities: seq<Activity>) returns (h: seq<WeeklyHistory>)
    ensures currentUser.None? || settings.None? ==> h == []
    ensures currentUser.Some? && settings.Some? ==>
      var id, goal := currentUser.value.id, settings.value.weeklyGoalMinutes;
      var counted := CountedActivities(activities, id);
      && NewestFirst(h)
      && (forall w :: HasEntry(h, w) <==> ActiveIn(activities, id, w))
      && (forall e :: e in h ==> e.totalMinutes == WeekTotal(counted, e.weekId) && (e.goalMet <==> e.totalMinutes >= goal))
      && SumTotals(h) == SumDurations(counted)
  {
    if currentUser.None? || settings.None? {
      return [];
    }
    var id, goal := currentUser.value.id, settings.value.weeklyGoalMinutes;
    var counted := CountedActivities(activities, id);
    var order, weeks := AccumulateWeeks(counted);
    var entries := Entries(order, weeks, goal);
    h := SortNewestFirst(entries);
    EntriesOfTally(counted, Tally(order, weeks), goal);
    forall w ensures HasEntry(h, w) <==> ActiveIn(activities, id, w)
    {
      ActiveInCounted(activities, id, w);
    }
  }
}

=== FILE: types.dfy ===
/** Record shapes of the tracker (types.ts) and the small sequence helpers
    that the store, the engine and the screens share. */
module Types {

  datatype Option<+T> = None | Some(value: T)

  /** Local wall-clock time in milliseconds since 1970-01-01 00:00:00.000. */
  type Timestamp = int

  /** A week is identified by the day number of its Monday. */
  type WeekId = int

  datatype User = User(
    id: string,
    username: string,
    password: Option<string>,
    isCoach: bool,
    cumulativePenalty: int,
    createdAt: Timestamp)

  datatype ActivityType = ActivityType(id: string, name: string, icon: string)

  datatype Activity = Activity(
    id: string,
    userId: string,
    activityTypeId: string,
    duration: int,
    date: Timestamp,
    comment: Option<string>)

  datatype AppSettings = AppSettings(weeklyGoalMinutes: int, penaltyAmount: int)

  datatype ChatMessage = ChatMessage(
    id: string,
    userId: string,
    username: string,
    message: string,
    timestamp: Timestamp)

  datatype Status = Achieved | Pending | Failed

  datatype WeeklySummary = WeeklySummary(
    userId: string,
    username: string,
    totalMinutes: int,
    goalMet: bool,
    status: Status)

  /** The reserved activity type that marks a forfeited week. */
  const GaveUp: string := "gave-up"

  /** Elements of `s` satisfying `p`, in their original order. */
  function Filter<T>(s: seq<T>, p: T -> bool): seq<T>
  {
    if s == [] then []
    else
      var init, last := s[..|s| - 1], s[|s| - 1];
      Filter(init, p) + (if p(last) then [last] else [])
  }

  /** `Filter` keeps exactly the elements satisfying `p`, and no more of them
      than there were. */
  lemma {:induction false} FilterMembers<T>(s: seq<T>, p: T -> bool)
    ensures |Filter(s, p)| <= |s|
    ensures forall x :: x in Filter(s, p) <==> x in s && p(x)
  {
    if s != [] {
      var init, last := s[..|s| - 1], s[|s| - 1];
      assert s == init + [last];
      FilterMembers(init, p);
    }
  }

  /** Predicates that agree on the elements of `s` filter it alike. */
  lemma {:induction false} FilterAgree<T>(s: seq<T>, p: T -> bool, q: T -> bool)
    requires forall x :: x in s ==> p(x) == q(x)
    ensures Filter(s, p) == Filter(s, q)
  {
    if s != [] {
      var init, last := s[..|s| - 1], s[|s| - 1];
      assert forall x :: x in init ==> x in s;
      FilterAgree(init, p, q);
    }
  }

  lemma {:induction false} FilterAppend<T>(a: seq<T>, b: seq<T>, p: T -> bool)
    ensures Filter(a + b, p) == Filter(a, p) + Filter(b, p)
    decreases |b|
  {
    if b == [] {
      assert a + b == a;
    } else {
      var b', last := b[..|b| - 1], b[|b| - 1];
      var ab := a + b;
      assert ab[..|ab| - 1] == a + b' && ab[|ab| - 1] == last;
      FilterAppend(a, b', p);
    }
  }

  /** `activities.filter(a => a.userId === userId)`. */
  function ActivitiesOf(acts: seq<Activity>, userId: string): seq<Activity>
  {
    Filter(acts, (a: Activity) => a.userId == userId)
  }

  lemma ActivitiesOfAppend(a: seq<Activity>, b: seq<Activity>, userId: string)
    ensures ActivitiesOf(a + b, userId) == ActivitiesOf(a, userId) + ActivitiesOf(b, userId)
  {
    FilterAppend(a, b, (x: Activity) => x.userId == userId);
  }

  lemma ActivitiesOfSingle(a: Activity, userId: string)
    ensures ActivitiesOf([a], userId) == if a.userId == userId then [a] else []
  {
    var p := (x: Activity) => x.userId == userId;
    assert [a][..0] == [];
    assert Filter([a], p) == Filter([], p) + (if p(a) then [a] else []);
  }

  /** The `reduce((sum, a) => sum + a.duration, 0)` of the screens and the engine. */
  function SumDurations(acts: seq<Activity>): int
  {
    if acts == [] then 0 else SumDurations(acts[..|acts| - 1]) + acts[|acts| - 1].duration
  }

  lemma {:induction false} SumDurationsAppend(a: seq<Activity>, b: seq<Activity>)
    ensures SumDurations(a + b) == SumDurations(a) + SumDurations(b)
    decreases |b|
  {
    if b == [] {
      assert a + b == a;
    } else {
      var b' := b[..|b| - 1];
      var ab := a + b;
      assert ab[..|ab| - 1] == a + b' && ab[|ab| - 1] == b[|b| - 1];
      SumDurationsAppend(a, b');
    }
  }
}
